=== FILE: README.md ===
# Calendar dashboard: month grids and the event list

A Dafny model of the date arithmetic and the in-memory event list behind a
small React calendar dashboard. Three pieces are modelled:

- `getDaysInMonthGrid(year, month)` builds the Sunday-first grid of dates
  that the `Calendar` component renders for a zero-based month.
- The `App` component builds a Monday-first (ISO 8601 week) grid of
  `calendar` rows around the current month. It answers "which events fall on
  this day" and "which colour is this category". It also appends and deletes
  events through the modal form.
- The `Calendar` component turns each grid date into a cell with:
  - a `YYYY-MM-DD` key;
  - a today flag;
  - a current-month flag;
  - the events whose date text equals the key.

The model works on plain calendar days, in module by module form:

- **Dates.** A date is `(year, month, day)` in the proleptic Gregorian
  calendar (`Gregorian`). The leap rule and month lengths follow Appendix C
  of RFC 3339.
- **Day counts and weekdays.** Days are counted from 0000-03-01, and the
  weekday comes from that count. It is proved equal to the day-of-week
  formula in Appendix B of RFC 3339.
- **Date text.** `YYYY-MM-DD` text is the `full-date` form of section 5.6 of
  RFC 3339 (`FullDate`). Formatting and the strict reader `ParseFullDate` are
  proved inverse for years 0 to 9999. dayjs's reader, as the program uses it,
  differs for years 0 to 99: it reads them as 1900 to 1999 (`ParseDayjs`; see
  Findings).
- **Two readings of the event list.** The main event members (`OnDay`,
  `EventsForDay`, `MatchesDelete`, `WithoutMatching` and the `EventStore`)
  use the strict reader: this is the corrected reading, in which an event is
  listed on the day it was added on. Each has an `…AsWritten` counterpart
  over dayjs's reader. Lemmas about those counterparts show where the
  program's own behaviour agrees with the corrected one (from year 100 on)
  and where it does not.
- **Grids and loops.** Both grid builders are methods with the same loops as
  the JavaScript (`DateUtils.DaysInMonthGrid`, `App.BuildCalendar`). Each is
  proved equal to a specification function. The grid guarantees are proved
  of that function.
- **Events.** The event list lives in a class, `App.EventStore`. Its methods
  mirror `handleAddEvent` and `handleDeleteEvent`. The new lists they compute
  are functions with their own lemmas.
- **Inputs from outside.** The wall clock (`dayjs()`) is a parameter: `today`
  for the highlights, and `currentDate` for the `App` grid.

## Model

| member | source | states |
|---|---|---|
| Gregorian.DaysInMonth | src/utils/dateUtils.js:5-8 | a month has 28 to 31 days; February has 29 exactly in a leap year and 28 otherwise; April, June, September and November have 30 |
| Gregorian.NormalizeMonth | src/utils/dateUtils.js:4 | `.year(year).month(month)` lands in month 1..12 of the year that keeps the absolute month count `12*year + month`; a month index in 0..11 is taken as is |
| Gregorian.FirstOfMonth | src/utils/dateUtils.js:4 | `startOf("month")` is a valid date in the same year and month, on day 1 |
| Gregorian.LastOfMonth | src/utils/dateUtils.js:5 | `endOf("month")` is a valid date in the same month whose day is the month's length |
| Gregorian.AddDays | src/utils/dateUtils.js:14 | `add(n, 'day')` and `subtract(n, 'day')` of a valid date give a valid date, for any n |
| Gregorian.NextPrevInverse | src/utils/dateUtils.js:14 | stepping one day forward and one back (or back then forward) returns the same valid date |
| Gregorian.AddDaysNumber | src/utils/dateUtils.js:14 | `add(n, 'day')` moves the day count by exactly n, for negative n too |
| Gregorian.AddDaysAdd | src/utils/dateUtils.js:14 | `subtract(s, 'day').add(i, 'day')` is a single move of `i - s` days |
| Gregorian.AddDaysWithinMonth | src/utils/dateUtils.js:14 | a move that stays inside the month only changes the day of the month |
| Gregorian.Weekday | src/utils/dateUtils.js:7 | `day()` is a weekday 0 (Sunday) to 6 (Saturday) |
| Gregorian.WeekdayMatchesRfc3339 | src/utils/dateUtils.js:7 | the weekday agrees with the Appendix B day-of-week formula of RFC 3339 on every valid date |
| Gregorian.WeekdayAddDays | src/utils/dateUtils.js:14 | moving n days moves the weekday n steps round the week |
| Gregorian.StartOfIsoWeekIsMonday | src/App.jsx:30 | `startOf('isoWeek')` is a Monday, 0 to 6 days on or before the date |
| Gregorian.EndOfIsoWeekIsSunday | src/App.jsx:31 | `endOf('isoWeek')` is a Sunday, 0 to 6 days on or after the date |
| Gregorian.DayNumberOrder | src/App.jsx:35 | a smaller day count means an earlier day in (year, month, day) order, and the converse |
| Gregorian.MonthStartsIncrease | src/App.jsx:35 | a later month starts after every day of an earlier month |
| Gregorian.SameDayIsSameDayNumber | src/App.jsx:44 | `isSame(…, 'day')` of two valid dates holds exactly when their day counts are equal |
| FullDate.PadStart | src/components/Calender.jsx:18 | zero padding keeps the digits at the end, pads only with `0`, and reaches the width unless the text is already longer |
| FullDate.FormatDate | src/components/Calender.jsx:18 | `format("YYYY-MM-DD")` is at least ten characters, and exactly ten for a year from 0 to 9999 |
| FullDate.ParseFullDate | src/App.jsx:47 | reading `YYYY-MM-DD` text strictly yields only valid dates with a four-digit year |
| FullDate.ParseDayjs | src/App.jsx:47 | `dayjs(e.date)` reads the same texts as the strict reader and always gives a valid date; from year 100 on it gives the same date; for a year y from 0 to 99 its day count is that of the 1st of the month in year 1900 + y, plus the day minus one |
| FullDate.ShiftEarlyYear | src/App.jsx:47 | `new Date(y + 1900, m - 1, d)` is a valid date whose day count is the 1st of that month's, plus d - 1 |
| FullDate.ParseDayjsYear | src/App.jsx:47 | a year y from 0 to 99 is read as year 1900 + y |
| FullDate.ShiftEarlyYearYear | src/App.jsx:47 | the shifted date is in year 1900 + y; it keeps the month and day, except that 0000-02-29 becomes 1900-03-01 |
| FullDate.ParseDayjsYearRange | src/App.jsx:47 | every date dayjs reads from the text lies in the years 100 to 9999 |
| FullDate.EarlyYearMisread | src/App.jsx:47 | the `YYYY-MM-DD` text of every valid date with a year from 0 to 99 is read as a date 1900 years later, never as the date itself |
| FullDate.FormatParseRoundTrip | src/App.jsx:71 | `format('YYYY-MM-DD')` read back strictly gives the same calendar day, for years 0 to 9999 |
| FullDate.ParseFormatRoundTrip | src/App.jsx:47 | text that reads as a date is exactly the `YYYY-MM-DD` form of that date |
| FullDate.FormatReadsBackAsItself | src/App.jsx:71 | for any year, the `YYYY-MM-DD` text of a date reads as that date or as nothing |
| FullDate.FormatDateInjective | src/components/Calender.jsx:18 | two valid dates, whatever their years, have the same `YYYY-MM-DD` text exactly when they are the same date |
| FullDate.YearTextInjective | src/components/Calender.jsx:18 | two years, negative or not, with the same padded `YYYY` text are the same year |
| Subsequences.Filter | src/components/Calender.jsx:10 | `filter` keeps exactly the passing elements, each as often as in the input, in their original order |
| Subsequences.FilterAppend | src/App.jsx:67-73 | filtering a list with one event appended is filtering the list, then the event |
| Subsequences.FilterKeepsAll | src/App.jsx:79-81 | a filter that every element passes keeps the whole list |
| Subsequences.FilterIdempotent | src/App.jsx:79-81 | filtering twice with the same test is filtering once |
| Subsequences.FilterAgree | src/App.jsx:46-47 | two tests that agree on every element of the list filter it the same |
| DateUtils.TotalCells | src/utils/dateUtils.js:10 | `Math.ceil((startDay + daysInMonth) / 7) * 7` is a multiple of 7, at least `startDay + daysInMonth` and less than 7 beyond it |
| DateUtils.StartDay | src/utils/dateUtils.js:7 | the lead count `startOfMonth.day()` is 0 to 6 |
| DateUtils.DaysInMonthGrid | src/utils/dateUtils.js:3-19 | the `for` loop's dates are exactly the grid: cell i is the 1st, minus `startDay` days, plus i days |
| DateUtils.SundayGridCell | src/utils/dateUtils.js:14 | every cell is a valid date lying `i - startDay` days after the 1st |
| DateUtils.SundayGridLength | src/utils/dateUtils.js:7-10 | the cell count is a multiple of 7 from `startDay + daysInMonth` to 6 beyond it; it is 28, 35 or 42, and 28 only for a 28-day February starting on a Sunday |
| DateUtils.SundayGridStartsOnSunday | src/utils/dateUtils.js:7-14 | the first cell is a Sunday, `startDay` days before the 1st |
| DateUtils.SundayGridConsecutive | src/utils/dateUtils.js:13-16 | cell i+1 is the day after cell i |
| DateUtils.SundayGridDayNumber | src/utils/dateUtils.js:13-16 | the day count rises by one per cell |
| DateUtils.SundayGridDistinct | src/utils/dateUtils.js:13-16 | cells at different indices are different dates |
| DateUtils.SundayGridWeekday | src/utils/dateUtils.js:7-14 | cell i falls on weekday i % 7, Sunday first |
| DateUtils.SundayGridMonthDay | src/utils/dateUtils.js:7-14 | day k of the month is at index `startDay + k - 1`: the 1st at `startDay`, the last day at `startDay + daysInMonth - 1` |
| DateUtils.SundayGridMonthDayOnce | src/utils/dateUtils.js:13-16 | day k of the month is at index i exactly when `i == startDay + k - 1`, so each day appears once |
| DateUtils.SundayGridLeadingCell | src/utils/dateUtils.js:14 | the cells before index `startDay` are the last days of the previous month, in order |
| DateUtils.SundayGridTrailingCell | src/utils/dateUtils.js:14 | the cells after the month's last day are the first days of the next month, in order |
| Calendar.EventsForDate | src/components/Calender.jsx:10 | exactly the events whose date text equals `dateStr`, with no calendar-day normalisation; each keeps its multiplicity, in the original order |
| Calendar.CellOf | src/components/Calender.jsx:17-21 | the key is the date's `format('YYYY-MM-DD')` text, and for a year from 0 to 9999 it reads back as the cell's date; the events are exactly the ordered list `getEventsForDate` gives for that key; `isToday` is same-day with `today`; `inCurrentMonth` holds iff the zero-based month equals the prop |
| Calendar.Cells | src/components/Calender.jsx:17-21 | one cell per grid date, in grid order |
| Calendar.InCurrentMonthExactly | src/components/Calender.jsx:20 | a cell is in the current month exactly when it is one of the month's own days; a month prop outside 0..11 marks none |
| Calendar.AtMostOneToday | src/components/Calender.jsx:19 | no two cells are both highlighted as today |
| Calendar.KeysDistinct | src/components/Calender.jsx:18-24 | the `key={dateStr}` values of different cells differ |
| Calendar.EventShownOnce | src/components/Calender.jsx:21 | an event dated with cell i's key is listed in cell i and in no other cell |
| Calendar.HeaderMatchesGrid | src/components/Calender.jsx:14 | the Sun..Sat heading over each column names the weekday of every cell below it |
| App.IsoWeekCount | src/App.jsx:30-42 | the grid has 4 to 6 rows: the lead days plus the month's days, rounded up to whole weeks |
| App.IsoWeekCountSpan | src/App.jsx:30-35 | seven times the row count is the number of days from `startDay` to `endDay` inclusive |
| App.IsBefore | src/App.jsx:35 | `day.isBefore(endDay, 'day')` of valid dates holds exactly when `day` comes first in (year, month, day) order |
| App.IsoGridStartFacts | src/App.jsx:30 | `startDay` is a valid Monday, 0 to 6 days before the 1st |
| App.WeekRow | src/App.jsx:36-40 | each `week` has exactly 7 entries |
| App.BuildCalendar | src/App.jsx:30-42 | the `calendar` rows are exactly the month view's weeks: row r, column c is `startDay` plus 7r + c days |
| App.WeeksUntil | src/App.jsx:35-42 | the `while (day.isBefore(endDay, 'day'))` loop stops after exactly the rows that reach `endDay` |
| App.FillWeek | src/App.jsx:37-40 | the inner loop pushes the seven days of row r and leaves `day` on the Monday after |
| App.IsoWeeksCell | src/App.jsx:32-42 | the entry at row r, column c is a valid date, 7r + c days after `startDay` |
| App.IsoWeeksCellNumber | src/App.jsx:32-42 | the day count of the entry at row r, column c is `startDay`'s plus 7r + c |
| App.IsoWeeksShape | src/App.jsx:35-42 | 4 to 6 rows, each of exactly 7 entries |
| App.IsoWeeksConsecutive | src/App.jsx:37-41 | each entry is the day after the previous one, within a row and across rows |
| App.IsoWeeksFirstDay | src/App.jsx:30-32 | the first entry is the Monday on or before the 1st |
| App.IsoWeeksLastDay | src/App.jsx:31-35 | the last entry is `endDay`, the Sunday on or after the month's last day |
| App.IsoWeeksMonthDayOnce | src/App.jsx:30-42 | day k of the month is at row r, column c exactly when `7r + c` is the lead count plus k - 1, so each day appears once |
| App.IsoWeeksWeekday | src/App.jsx:37-40 | column c falls on weekday (c + 1) % 7: Monday first, Sunday last |
| App.IsoWeeksDistinct | src/App.jsx:35-42 | different positions in the grid hold different dates |
| App.IsoWeeksAtMostOneToday | src/App.jsx:44 | `isToday` highlights at most one entry of the grid |
| App.HeaderNamesWeekday | src/App.jsx:142 | the heading in column c abbreviates weekday (c + 1) % 7 |
| App.HeaderMatchesColumns | src/App.jsx:142 | the Mon..Sun heading over each column names the weekday of every date below it |
| App.OnDay | src/App.jsx:47 | `dayjs(event.date).isSame(date, 'day')`, read strictly: for a year from 0 to 9999 it holds exactly when the event's text is the day's `YYYY-MM-DD`; for other years it never holds |
| App.EventsForDay | src/App.jsx:46-47 | exactly the events whose date text names the same calendar day, each with its multiplicity, in their original order |
| App.EventQueriesAgree | src/App.jsx:46-47 | with the strict reader (the corrected reading, see Findings), for a year from 0 to 9999, `getEventsForDay(date)` in `App` lists the same events, in the same order, as `getEventsForDate` in `Calendar` for that day's key |
| App.CategoryStyle | src/App.jsx:49-62 | total: green exactly for `birthday` and `social`, blue exactly for `meeting` and `deadline`, red exactly for `holiday`, gray for any other string |
| App.EventFromForm | src/App.jsx:69-72 | the new event copies every form field, takes the given date text, and has no id |
| App.WithAdded | src/App.jsx:67-73 | the old list is kept unchanged, with exactly one event appended: the form's event, dated `YYYY-MM-DD` of the selected day |
| App.MatchesDelete | src/App.jsx:80 | with the strict reader (the corrected reading, see Findings), the delete test never holds without a selected day; for a selected day with a year from 0 to 9999 it holds exactly when the event's text is that day's `YYYY-MM-DD` and the title is the given one |
| App.WithoutMatching | src/App.jsx:79-81 | (strict reader, the corrected reading) the events that are on the selected day with the given title are dropped; the rest are kept, with their multiplicity, in order |
| App.EventStore.constructor | src/App.jsx:12-23 | the store starts with the given events, the default form (category `social`) and no selected day |
| App.EventStore.SelectDay | src/App.jsx:154 | clicking a cell (or the edit button) selects that day and changes nothing else |
| App.EventStore.EditForm | src/App.jsx:209-220 | the inputs replace the form and change nothing else |
| App.EventStore.SelectedDayEvents | src/App.jsx:228 | (strict reader, the corrected reading) the modal lists the selected day's events, or none without a selected day |
| App.EventStore.AddEvent | src/App.jsx:64-76 | with no selected day nothing changes; otherwise the list gains the form's event for that day and the form is reset |
| App.EventStore.DeleteEvent | src/App.jsx:78-83 | (strict reader, the corrected reading) the list loses exactly the events on the selected day with that title; the form and the selection are kept |
| App.AddedEventFoundOnDay | src/App.jsx:64-76 | after adding on day d with a year from 0 to 9999, that day's events are the old ones followed by the new one |
| App.AddLeavesOtherDays | src/App.jsx:64-76 | with the strict reader (the corrected reading, see Findings), adding on any valid day d leaves every other day's events unchanged |
| App.DeleteRemovesAllMatches | src/App.jsx:78-83 | no survivor is on the day with that title, and the list shrinks by the number of matches, however many there are |
| App.DeleteWithoutMatchIsNoOp | src/App.jsx:78-83 | deleting when nothing matches leaves the list as it was |
| App.DeleteIdempotent | src/App.jsx:78-83 | deleting twice is deleting once |
| App.AddThenDeleteRestores | src/App.jsx:64-83 | with the strict reader (the corrected reading, see Findings), adding an event and deleting its title on that day restores the list, when nothing else matched and the year is from 0 to 9999 |
| App.EarlyYearRead | src/App.jsx:47 | dayjs reads the text `0050-03-15` as 1950-03-15 |
| App.AddedEventListedWhereRead | src/App.jsx:64-76 | when dayjs reads day d's text as another day, adding on d leaves d's list (as the program computes it) unchanged and appends the event to the other day's list |
| App.EarlyYearAddMissesItsDay | src/App.jsx:47 | an event added on 0050-03-15 is not listed on that day but on 1950-03-15 |
| App.OnDayAsWritten | src/App.jsx:47 | `dayjs(event.date).isSame(date, 'day')` as written: it never holds on a day outside the years 100 to 9999; from year 100 on it holds whenever the strict test does; and from year 100 on, outside the 1900s, it agrees with the strict test exactly |
| App.EventsForDayAsWritten | src/App.jsx:46-47 | `getEventsForDay` as written: exactly the events the as-written test puts on the day, each with its multiplicity, in their original order |
| App.MatchesDeleteAsWritten | src/App.jsx:80 | the delete test as written: never without a selected day or on a day before year 100; from year 100 on, outside the 1900s, it agrees with the strict test exactly |
| App.WithoutMatchingAsWritten | src/App.jsx:79-81 | `handleDeleteEvent`'s filter as written: drops exactly the events the as-written test matches and keeps the rest, with their multiplicity, in order |
| App.EarlyYearDeleteIsNoOp | src/App.jsx:78-83 | as written, deleting on a day before year 100 leaves the list as it was |
| App.EarlyYearDeleteMissesItsDay | src/App.jsx:78-83 | as written, deleting the title of an event added on 0050-03-15 keeps it with 0050-03-15 selected and removes it with 1950-03-15 selected |
| App.QueriesDisagreeWhereRead | src/App.jsx:46-47 | as written, when dayjs reads day d's text as another day, the month view lists an event with that text on the other day while the `Calendar` component does not list it under that day's key |
| App.EarlyYearQueriesDisagree | src/App.jsx:46-47 | as written, an event dated `0050-03-15` is listed on 1950-03-15 by the month view and not by the `Calendar` component |
| App.AddedEventFoundOnDayAsWritten | src/App.jsx:64-76 | as written, for a day from year 100 to 9999, that day's events after adding are the old ones followed by the new one |
| App.AddLeavesOtherDaysAsWritten | src/App.jsx:64-76 | as written, adding on a day of year 100 or later leaves every other day's events unchanged |
| App.AddThenDeleteRestoresAsWritten | src/App.jsx:64-83 | as written, for a day from year 100 to 9999, adding an event and deleting its title there restores the list, when nothing else matched |
| App.EventQueriesAgreeAsWritten | src/App.jsx:46-47 | as written, for a day from year 100 to 9999 outside the 1900s, `getEventsForDay` and `getEventsForDate` list the same events in the same order |

## Left out

- Rendering is not modelled: JSX, Tailwind class strings other than the category map, the sidebar, `selectedView`, the modal's `showModal` flag, and the month-and-year headings.
- The dark-mode effect is not modelled: it is DOM I/O.
- `Header.jsx` is not part of this model: its month name comes from locale-dependent `toLocaleString`.
- `Eventcard.jsx` is not part of this model: it is markup.
- The contents of the `events.json` seed are not shown; the initial list is a parameter of `App.EventStore.constructor`.
- The wall clock is a parameter. `today` stands for `dayjs()` in `isToday` and in the `Calendar` component. The `App` grid is built from a given `currentDate`. The Sunday grid depends only on `(year, month)`.
- The previous-month and next-month buttons are not modelled (`currentDate.subtract/add(1, 'month')`). They only choose which `currentDate` the grid is built from.
- Time of day and time zones are not modelled: dates are plain calendar days. `isSame(…, 'day')` and `isBefore(…, 'day')` compare calendar days.
- `FullDate.ParseFullDate` reads only the strict `YYYY-MM-DD` form. dayjs's lenient parsing of other shapes and out-of-range fields is not modelled. An event whose date text is in another shape is on no day here.
- `FullDate.FormatParseRoundTrip` holds for years 0 to 9999 only. Other years do not have a four-digit `YYYY` form, so their text reads as no date (`FullDate.FormatReadsBackAsItself`).
- `App.OnDay` and `App.EventsForDay` use the strict reader, the corrected reading. For years 0 to 99 the program's own reader differs. That reader is modelled separately (`FullDate.ParseDayjs`, `App.OnDayAsWritten`) and recorded under Findings.
- `App.EventQueriesAgree` is the strict reader's result. As written, the month view and the `Calendar` component agree only on days from year 100 to 9999 outside the 1900s (`App.EventQueriesAgreeAsWritten`). On a day of 1900 + y, the month view also lists events dated with year y's text, and the component does not (`App.QueriesDisagreeWhereRead`).
- `App.MatchesDelete` is the strict reader's test. As written, it never matches on a day before year 100 (`App.MatchesDeleteAsWritten`, `App.EarlyYearDeleteIsNoOp`). With a day of 1900 + y selected, it also matches events dated with year y's text.
- `Calendar.CellOf`: the key reads back as the cell's date only for years 0 to 9999. Outside that range the key is still the cell's `YYYY-MM-DD` text and still names that cell alone, but it reads as no date.
- `App.AddedEventFoundOnDay` is the strict reader's result and holds for years 0 to 9999 only. For other years the stored text has no four plain year digits, so the event is listed on no day. As written, the program's version holds from year 100 (`App.AddedEventFoundOnDayAsWritten`). For years 0 to 99 it fails (`App.EarlyYearAddMissesItsDay`).
- `App.AddLeavesOtherDays` is the strict reader's result and holds for every year. As written, it holds only for days of year 100 or later (`App.AddLeavesOtherDaysAsWritten`). Adding on a day of year y from 0 to 99 changes the list of the day 1900 years later (`App.AddedEventListedWhereRead`).
- `App.AddThenDeleteRestores` is the strict reader's result and holds for years 0 to 9999 only. For other years the delete test matches nothing, so the added event stays. As written, the program's version holds from year 100 (`App.AddThenDeleteRestoresAsWritten`). For years 0 to 99 the delete misses the added event (`App.EarlyYearDeleteMissesItsDay`).
- `DateUtils.SundayGridLength`, and the grid members generally, assume dates inside JavaScript's `Date` range (±100,000,000 days around 1970, that is the years −271,821 to 275,760). Beyond it dayjs yields Invalid Date and `getDaysInMonthGrid` returns an empty list. The model's years are unbounded and it always builds the full grid.
- Months are not range-checked: a zero-based month outside 0..11 rolls into a neighbouring year, as JavaScript's `Date.setMonth` does under `.month(month)`, rather than being an error. `Gregorian.NormalizeMonth` states this.
- `App.EventFromForm`: the new event has no `id`, because `handleAddEvent` assigns none.
- The `key={e.id}` of events in a cell and the index keys in the `App` grid are React concerns and are not modelled.

## Findings

| source | as written | input that shows it | evidently intended | confidence | as-written member | corrected member |
|---|---|---|---|---|---|---|
| src/App.jsx:47 | `dayjs(event.date)` hands the text's fields to `new Date(y, m - 1, d)`, which reads a year from 0 to 99 as 1900 to 1999 | an event added on 0050-03-15 is stored as `0050-03-15`; `getEventsForDay` does not list it on 0050-03-15 but on 1950-03-15 | an added event is listed on the day it was added on | medium, not executed | App.EarlyYearAddMissesItsDay | App.AddedEventFoundOnDay |
| src/App.jsx:80 | the delete test reads the event's text with the same `dayjs(e.date)`, so years 0 to 99 are compared as 1900 to 1999 | add an event on 0050-03-15, then delete its title with 0050-03-15 selected: the event stays; with 1950-03-15 selected it goes | deleting a title on a day removes the event added there | medium, not executed | App.EarlyYearDeleteMissesItsDay | App.AddThenDeleteRestores |

=== FILE: app.dfy ===
/** The dashboard's month view and its in-memory event list.

    The month view lays out the displayed month in ISO weeks, Monday to
    Sunday (ISO 8601, week dates): from the Monday on or before the 1st to
    the Sunday on or after the last day, seven days per row. The event list
    is session state: events are appended for the selected day and deleted
    by (selected day, title). */
module App {
  import opened Wrappers
  import opened Gregorian
  import opened FullDate
  import opened Events
  import opened Subsequences
  import Calendar

  // ---------------------------------------------------------------------
  // The ISO week grid

  /** `currentDate.startOf('month').startOf('isoWeek')`. */
  function IsoGridStart(y: int, m: int): Date
    requires 1 <= m <= 12
  {
    StartOfIsoWeek(FirstOfMonth(y, m))
  }

  /** `currentDate.endOf('month').endOf('isoWeek')`. */
  function IsoGridEnd(y: int, m: int): Date
    requires 1 <= m <= 12
  {
    EndOfIsoWeek(LastOfMonth(y, m))
  }

  /** Days skipped back from the 1st to reach Monday: 0 for a Monday,
      6 for a Sunday. */
  function LeadDays(y: int, m: int): int
    requires 1 <= m <= 12
  {
    (Weekday(FirstOfMonth(y, m)) + 6) % 7
  }

  /** The number of rows: the lead days and the days of the month, rounded
      up to whole weeks, so 4, 5 or 6. */
  function IsoWeekCount(y: int, m: int): (n: nat)
    requires 1 <= m <= 12
    ensures 4 <= n <= 6
    ensures 7 * (n - 1) < LeadDays(y, m) + DaysInMonth(y, m) <= 7 * n
  {
    (LeadDays(y, m) + DaysInMonth(y, m) + 6) / 7
  }

  /** Rounding `lead + dim` up to whole weeks adds the days from the
      weekday w of the last day to the following Sunday. */
  lemma RoundUpToWeek(lead: int, dim: int, w: int, wf: int)
    requires 0 <= wf < 7 && lead == (wf + 6) % 7 && w == (wf + dim - 1) % 7
    ensures lead + dim + (7 - w) % 7 == 7 * ((lead + dim + 6) / 7)
  {
    var s := lead + dim;
    assert s == (wf + dim - 1) + 7 * (1 - (wf + 6) / 7);
    ModShift(wf + dim - 1, 1 - (wf + 6) / 7);
    var q, r := s / 7, s % 7;
    assert s == 7 * q + r;
    if r == 0 {
      assert (s + 6) / 7 == q;
    } else {
      assert s + 6 == 7 * (q + 1) + (r - 1);
    }
  }

  /** The last day of the month is `dim - 1` days after the 1st. */
  lemma LastOfMonthFacts(y: int, m: int)
    requires 1 <= m <= 12
    ensures DayNumber(LastOfMonth(y, m)) == DayNumber(FirstOfMonth(y, m)) + DaysInMonth(y, m) - 1
    ensures Weekday(LastOfMonth(y, m)) == (Weekday(FirstOfMonth(y, m)) + DaysInMonth(y, m) - 1) % 7
  {
    var first := FirstOfMonth(y, m);
    AddDaysWithinMonth(first, DaysInMonth(y, m) - 1);
    AddDaysNumber(first, DaysInMonth(y, m) - 1);
    WeekdayAddDays(first, DaysInMonth(y, m) - 1);
  }

  /** The end Sunday is the last day moved forward 0 to 6 days. */
  lemma IsoGridEndFacts(y: int, m: int)
    requires 1 <= m <= 12
    ensures DayNumber(IsoGridEnd(y, m)) == DayNumber(LastOfMonth(y, m)) + (7 - Weekday(LastOfMonth(y, m))) % 7
  {
    var last := LastOfMonth(y, m);
    AddDaysNumber(last, (7 - Weekday(last)) % 7);
  }

  /** The grid spans the lead days, the month, and the days after it up to Sunday. */
  lemma IsoGridSpan(y: int, m: int)
    requires 1 <= m <= 12
    ensures DayNumber(IsoGridEnd(y, m)) - DayNumber(IsoGridStart(y, m)) + 1
         == LeadDays(y, m) + DaysInMonth(y, m) + (7 - Weekday(LastOfMonth(y, m))) % 7
  {
    IsoGridStartFacts(y, m);
    LastOfMonthFacts(y, m);
    IsoGridEndFacts(y, m);
  }

  /** That span is the lead days and the month rounded up to whole weeks. */
  lemma IsoGridSpanWeeks(y: int, m: int)
    requires 1 <= m <= 12
    ensures LeadDays(y, m) + DaysInMonth(y, m) + (7 - Weekday(LastOfMonth(y, m))) % 7
         == 7 * ((LeadDays(y, m) + DaysInMonth(y, m) + 6) / 7)
  {
    LastOfMonthFacts(y, m);
    RoundUpToWeek(LeadDays(y, m), DaysInMonth(y, m), Weekday(LastOfMonth(y, m)), Weekday(FirstOfMonth(y, m)));
  }

  /** The row count is exactly the span from the start Monday to the end
      Sunday, in weeks: the loop over days stops after `IsoWeekCount` rows. */
  lemma IsoWeekCountSpan(y: int, m: int)
    requires 1 <= m <= 12
    ensures 7 * IsoWeekCount(y, m) == DayNumber(IsoGridEnd(y, m)) - DayNumber(IsoGridStart(y, m)) + 1
  {
    IsoGridSpan(y, m);
    IsoGridSpanWeeks(y, m);
  }

  /** Row r of a grid that starts at `start`: the seven days from start + 7r. */
  function WeekRow(start: Date, r: int): (row: seq<Date>)
    requires ValidDate(start)
    ensures |row| == 7
  {
    seq(7, c => AddDays(start, 7 * r + c))
  }

  /** The month view's weeks: row r, column c is the start Monday plus
      7r + c days. */
  function IsoWeeks(y: int, m: int): seq<seq<Date>>
    requires 1 <= m <= 12
  {
    var start := IsoGridStart(y, m);
    seq(IsoWeekCount(y, m), r => WeekRow(start, r))
  }

  /** `day.isBefore(endDay, 'day')`: on valid dates, exactly calendar order. */
  function IsBefore(a: Date, b: Date): (r: bool)
    ensures ValidDate(a) && ValidDate(b) ==> (r <==> Earlier(a, b))
  {
    var r := DayNumber(a) < DayNumber(b);
    assert ValidDate(a) && ValidDate(b) ==> (r <==> Earlier(a, b)) by {
      if ValidDate(a) && ValidDate(b) {
        DayNumberOrder(a, b);
      }
    }
    r
  }

  /** The month view's `calendar`: rows of seven consecutive days from the
      start Monday while the current day is before the end Sunday. */
  method BuildCalendar(currentDate: Date) returns (calendar: seq<seq<Date>>)
    requires ValidDate(currentDate)
    ensures calendar == IsoWeeks(currentDate.year, currentDate.month)
  {
    var y, m := currentDate.year, currentDate.month;
    var startDay := IsoGridStart(y, m);
    var endDay := IsoGridEnd(y, m);
    IsoWeekCountSpan(y, m);
    calendar := WeeksUntil(startDay, endDay, IsoWeekCount(y, m));
  }

  /** The `while` loop itself: whole weeks from `startDay` while the current
      day is before `endDay`, a span of exactly `rows` weeks. */
  method WeeksUntil(startDay: Date, endDay: Date, ghost rows: nat) returns (calendar: seq<seq<Date>>)
    requires ValidDate(startDay)
    requires 7 * rows == DayNumber(endDay) - DayNumber(startDay) + 1
    ensures calendar == seq(rows, r => WeekRow(startDay, r))
  {
    var day := startDay;
    calendar := [];
    AddDaysNumber(startDay, 0);
    while IsBefore(day, endDay)
      invariant |calendar| <= rows
      invariant ValidDate(day) && day == AddDays(startDay, 7 * |calendar|)
      invariant DayNumber(day) == DayNumber(startDay) + 7 * |calendar|
      invariant forall r :: 0 <= r < |calendar| ==> calendar[r] == WeekRow(startDay, r)
      decreases rows - |calendar|
    {
      var week;
      week, day := FillWeek(startDay, |calendar|, day);
      calendar := calendar + [week];
      AddDaysNumber(startDay, 7 * |calendar|);
    }
  }

  /** The inner loop: push the current day and step to the next, seven times. */
  method FillWeek(startDay: Date, r: nat, day0: Date) returns (week: seq<Date>, day: Date)
    requires ValidDate(startDay) && day0 == AddDays(startDay, 7 * r)
    ensures week == WeekRow(startDay, r)
    ensures ValidDate(day) && day == AddDays(startDay, 7 * r + 7)
  {
    ghost var row := WeekRow(startDay, r);
    week, day := [], day0;
    for i := 0 to 7
      invariant ValidDate(day) && day == AddDays(startDay, 7 * r + i)
      invariant week == row[..i]
    {
      week := week + [day];
      AddDaysAdd(startDay, 7 * r + i, 1);
      day := AddDays(day, 1);
    }
  }

  /** The start Monday is the 1st moved back by `LeadDays`, 0 to 6 days. */
  lemma IsoGridStartFacts(y: int, m: int)
    requires 1 <= m <= 12
    ensures ValidDate(IsoGridStart(y, m)) && Weekday(IsoGridStart(y, m)) == 1
    ensures 0 <= LeadDays(y, m) <= 6
    ensures IsoGridStart(y, m) == AddDays(FirstOfMonth(y, m), -LeadDays(y, m))
    ensures DayNumber(IsoGridStart(y, m)) == DayNumber(FirstOfMonth(y, m)) - LeadDays(y, m)
  {
    var first := FirstOfMonth(y, m);
    StartOfIsoWeekIsMonday(first);
    AddDaysNumber(first, -((Weekday(first) + 6) % 7));
  }

  /** Row r, column c is the start Monday plus 7r + c days. */
  lemma IsoWeeksCell(y: int, m: int, r: int, c: int)
    requires 1 <= m <= 12
    requires 0 <= r < |IsoWeeks(y, m)| && 0 <= c < 7
    ensures |IsoWeeks(y, m)[r]| == 7
    ensures IsoWeeks(y, m)[r][c] == AddDays(IsoGridStart(y, m), 7 * r + c)
    ensures ValidDate(IsoWeeks(y, m)[r][c])
  {
  }

  /** ... so its day number is the start's plus 7r + c. */
  lemma IsoWeeksCellNumber(y: int, m: int, r: int, c: int)
    requires 1 <= m <= 12
    requires 0 <= r < |IsoWeeks(y, m)| && 0 <= c < 7
    ensures DayNumber(IsoWeeks(y, m)[r][c]) == DayNumber(IsoGridStart(y, m)) + 7 * r + c
  {
    IsoWeeksCell(y, m, r, c);
    ShiftedNumber(IsoGridStart(y, m), 7 * r + c, IsoWeeks(y, m)[r][c]);
  }

  /** Each row holds seven dates, and there are 4 to 6 rows. */
  lemma IsoWeeksShape(y: int, m: int)
    requires 1 <= m <= 12
    ensures 4 <= |IsoWeeks(y, m)| <= 6
    ensures forall r :: 0 <= r < |IsoWeeks(y, m)| ==> |IsoWeeks(y, m)[r]| == 7
  {
  }

  /** Consecutive entries, along a row and from the end of one row to the
      start of the next, are consecutive days. */
  lemma IsoWeeksConsecutive(y: int, m: int, r: int, c: int)
    requires 1 <= m <= 12
    requires 0 <= r < |IsoWeeks(y, m)| && 0 <= c < 7
    ensures ValidDate(IsoWeeks(y, m)[r][c])
    ensures c < 6 ==> IsoWeeks(y, m)[r][c + 1] == NextDay(IsoWeeks(y, m)[r][c])
    ensures c == 6 && r + 1 < |IsoWeeks(y, m)| ==> IsoWeeks(y, m)[r + 1][0] == NextDay(IsoWeeks(y, m)[r][c])
  {
    var start := IsoGridStart(y, m);
    IsoWeeksCell(y, m, r, c);
    if c < 6 {
      IsoWeeksCell(y, m, r, c + 1);
      ShiftedNext(start, 7 * r + c, IsoWeeks(y, m)[r][c], IsoWeeks(y, m)[r][c + 1]);
    } else if r + 1 < |IsoWeeks(y, m)| {
      IsoWeeksCell(y, m, r + 1, 0);
      ShiftedNext(start, 7 * r + c, IsoWeeks(y, m)[r][c], IsoWeeks(y, m)[r + 1][0]);
    }
  }

  /** The grid opens on the Monday on or before the 1st... */
  lemma IsoWeeksFirstDay(y: int, m: int)
    requires 1 <= m <= 12
    ensures |IsoWeeks(y, m)| > 0
    ensures IsoWeeks(y, m)[0][0] == IsoGridStart(y, m)
    ensures Weekday(IsoWeeks(y, m)[0][0]) == 1
    ensures DayNumber(FirstOfMonth(y, m)) - 6 <= DayNumber(IsoWeeks(y, m)[0][0]) <= DayNumber(FirstOfMonth(y, m))
  {
    IsoGridStartFacts(y, m);
    IsoWeeksCell(y, m, 0, 0);
  }

  /** ... and closes on the end Sunday, the Sunday on or after the last day
      of the month. */
  lemma IsoWeeksLastDay(y: int, m: int)
    requires 1 <= m <= 12
    ensures |IsoWeeks(y, m)| > 0
    ensures DayNumber(IsoWeeks(y, m)[|IsoWeeks(y, m)| - 1][6]) == DayNumber(IsoGridEnd(y, m))
    ensures Weekday(IsoWeeks(y, m)[|IsoWeeks(y, m)| - 1][6]) == 0
    ensures DayNumber(LastOfMonth(y, m)) <= DayNumber(IsoWeeks(y, m)[|IsoWeeks(y, m)| - 1][6])
                                          <= DayNumber(LastOfMonth(y, m)) + 6
  {
    IsoWeeksLastIsEnd(y, m);
    IsoWeeksWeekday(y, m, |IsoWeeks(y, m)| - 1, 6);
    EndOfIsoWeekIsSunday(LastOfMonth(y, m));
  }

  lemma IsoWeeksLastIsEnd(y: int, m: int)
    requires 1 <= m <= 12
    ensures |IsoWeeks(y, m)| > 0
    ensures DayNumber(IsoWeeks(y, m)[|IsoWeeks(y, m)| - 1][6]) == DayNumber(IsoGridEnd(y, m))
  {
    IsoWeekCountSpan(y, m);
    IsoWeeksCellNumber(y, m, |IsoWeeks(y, m)| - 1, 6);
  }

  /** Day k of the month is at row r, column c exactly when 7r + c is
      `LeadDays + k - 1`: every day of the month appears, and only once. */
  lemma IsoWeeksMonthDayOnce(y: int, m: int, k: int, r: int, c: int)
    requires 1 <= m <= 12 && 1 <= k <= DaysInMonth(y, m)
    requires 0 <= r < |IsoWeeks(y, m)| && 0 <= c < 7
    ensures IsoWeeks(y, m)[r][c] == Date(y, m, k) <==> 7 * r + c == LeadDays(y, m) + k - 1
  {
    if 7 * r + c == LeadDays(y, m) + k - 1 {
      IsoWeeksHasMonthDay(y, m, k, r, c);
    } else if IsoWeeks(y, m)[r][c] == Date(y, m, k) {
      IsoWeeksMonthDayPosition(y, m, k, r, c);
    }
  }

  lemma IsoWeeksHasMonthDay(y: int, m: int, k: int, r: int, c: int)
    requires 1 <= m <= 12 && 1 <= k <= DaysInMonth(y, m)
    requires 0 <= r < |IsoWeeks(y, m)| && 0 <= c < 7
    requires 7 * r + c == LeadDays(y, m) + k - 1
    ensures IsoWeeks(y, m)[r][c] == Date(y, m, k)
  {
    var first, lead, j := FirstOfMonth(y, m), LeadDays(y, m), 7 * r + c;
    IsoWeeksCell(y, m, r, c);
    assert IsoGridStart(y, m) == AddDays(first, -lead);
    BackThenForward(first, lead, j);
    assert AddDays(AddDays(first, -lead), j) == Date(y, m, k);
  }

  /** Going back `lead` days and then forward `j` lands `j - lead` days after `d`. */
  lemma BackThenForward(d: Date, lead: int, j: int)
    requires ValidDate(d) && d.day == 1
    requires 0 <= j - lead < DaysInMonth(d.year, d.month)
    ensures AddDays(AddDays(d, -lead), j) == Date(d.year, d.month, j - lead + 1)
  {
    AddDaysAdd(d, -lead, j);
    AddDaysWithinMonth(d, j - lead);
  }

  lemma IsoWeeksMonthDayPosition(y: int, m: int, k: int, r: int, c: int)
    requires 1 <= m <= 12 && 1 <= k <= DaysInMonth(y, m)
    requires 0 <= r < |IsoWeeks(y, m)| && 0 <= c < 7
    requires IsoWeeks(y, m)[r][c] == Date(y, m, k)
    ensures 7 * r + c == LeadDays(y, m) + k - 1
  {
    var first := FirstOfMonth(y, m);
    IsoWeeksCellNumber(y, m, r, c);
    IsoGridStartFacts(y, m);
    AddDaysWithinMonth(first, k - 1);
    AddDaysNumber(first, k - 1);
  }

  /** Column c holds weekday (c + 1) % 7: Monday first, Sunday last. */
  lemma IsoWeeksWeekday(y: int, m: int, r: int, c: int)
    requires 1 <= m <= 12
    requires 0 <= r < |IsoWeeks(y, m)| && 0 <= c < 7
    ensures Weekday(IsoWeeks(y, m)[r][c]) == (c + 1) % 7
  {
    IsoGridStartFacts(y, m);
    IsoWeeksCell(y, m, r, c);
    MondayRowWeekday(IsoGridStart(y, m), r, c);
  }

  /** In rows of seven from a Monday, column c falls on weekday (c + 1) % 7. */
  lemma MondayRowWeekday(start: Date, r: int, c: int)
    requires ValidDate(start) && Weekday(start) == 1
    ensures Weekday(AddDays(start, 7 * r + c)) == (c + 1) % 7
  {
    ModShift(c + 1, r);
    WeekdayAfter(start, 7 * r + c, (c + 1) % 7);
  }

  /** Different positions of the grid hold different dates. */
  lemma IsoWeeksDistinct(y: int, m: int, r1: int, c1: int, r2: int, c2: int)
    requires 1 <= m <= 12
    requires 0 <= r1 < |IsoWeeks(y, m)| && 0 <= c1 < 7
    requires 0 <= r2 < |IsoWeeks(y, m)| && 0 <= c2 < 7
    requires r1 != r2 || c1 != c2
    ensures IsoWeeks(y, m)[r1][c1] != IsoWeeks(y, m)[r2][c2]
  {
    IsoWeeksCellNumber(y, m, r1, c1);
    IsoWeeksCellNumber(y, m, r2, c2);
    if r1 < r2 {
      assert 7 * r1 + c1 < 7 * r2 + c2;
    } else if r2 < r1 {
      assert 7 * r2 + c2 < 7 * r1 + c1;
    }
  }

  /** At most one cell of the grid is highlighted as today (`isToday(date)`,
      with the clock's current day passed in as `today`). */
  lemma IsoWeeksAtMostOneToday(y: int, m: int, today: Date, r1: int, c1: int, r2: int, c2: int)
    requires 1 <= m <= 12
    requires 0 <= r1 < |IsoWeeks(y, m)| && 0 <= c1 < 7
    requires 0 <= r2 < |IsoWeeks(y, m)| && 0 <= c2 < 7
    requires r1 != r2 || c1 != c2
    ensures !(SameDay(today, IsoWeeks(y, m)[r1][c1]) && SameDay(today, IsoWeeks(y, m)[r2][c2]))
  {
    IsoWeeksDistinct(y, m, r1, c1, r2, c2);
  }

  /** The week-day headings, Monday first. */
  const Header: seq<string> := ["Mon", "Tue", "Wed", "Thu", "Fri", "Sat", "Sun"]

  /** Heading c is the abbreviation of weekday (c + 1) % 7. */
  lemma HeaderNamesWeekday(c: int)
    requires 0 <= c < 7
    ensures Header[c] == DayNames[(c + 1) % 7][..3]
  {
    if c == 0 {} else if c == 1 {} else if c == 2 {} else if c == 3 {}
    else if c == 4 {} else if c == 5 {} else {}
  }

  /** The heading over column c names the weekday of every date in that column. */
  lemma HeaderMatchesColumns(y: int, m: int, r: int, c: int)
    requires 1 <= m <= 12
    requires 0 <= r < |IsoWeeks(y, m)| && 0 <= c < 7
    ensures Header[c] == DayNames[Weekday(IsoWeeks(y, m)[r][c])][..3]
  {
    IsoWeeksWeekday(y, m, r, c);
    HeaderNamesWeekday(c);
  }

  // ---------------------------------------------------------------------
  // Event queries

  /** `dayjs(event.date).isSame(date, 'day')`: the event's date text names
      the calendar day `d`. For a valid day with a four-digit year that is
      exactly having the day's `YYYY-MM-DD` form as date text; no event is on
      a day of another year. */
  function OnDay(e: Event, d: Date): (r: bool)
    ensures ValidDate(d) && FourDigitYear(d) ==> (r <==> e.date == FormatDate(d))
    ensures !FourDigitYear(d) ==> !r
  {
    var p := ParseFullDate(e.date);
    var r := p.Some? && SameDay(p.value, d);
    assert ValidDate(d) && FourDigitYear(d) ==> (r <==> e.date == FormatDate(d)) by {
      if ValidDate(d) && FourDigitYear(d) {
        FormatParseRoundTrip(d);
        if p.Some? {
          ParseFormatRoundTrip(e.date);
        }
      }
    }
    r
  }

  /** `getEventsForDay(date)`. */
  function EventsForDay(events: seq<Event>, d: Date): (r: seq<Event>)
    ensures forall e :: e in r <==> e in events && OnDay(e, d)
    ensures IsSubsequence(r, events)
    ensures forall e :: multiset(r)[e] == if OnDay(e, d) then multiset(events)[e] else 0
  {
    Filter(events, (e: Event) => OnDay(e, d))
  }

  /** For a valid day with a four-digit year, the calendar-day query of the
      month view and the exact-text query of the `Calendar` component list
      the same events. */
  lemma EventQueriesAgree(events: seq<Event>, d: Date)
    requires ValidDate(d) && FourDigitYear(d)
    ensures EventsForDay(events, d) == Calendar.EventsForDate(events, FormatDate(d))
  {
    FilterAgree(events, (e: Event) => OnDay(e, d), (e: Event) => e.date == FormatDate(d));
  }

  const GreenStyle := "bg-green-200 dark:bg-green-500"
  const BlueStyle := "bg-blue-200 dark:bg-blue-500"
  const RedStyle := "bg-red-200 dark:bg-red-500"
  const GrayStyle := "bg-gray-200 dark:bg-gray-600"

  /** `getEventCategoryStyle`: total over all strings, gray for anything unrecognised. */
  function CategoryStyle(category: string): (style: string)
    ensures style in {GreenStyle, BlueStyle, RedStyle, GrayStyle}
    ensures style == GreenStyle <==> category == "birthday" || category == "social"
    ensures style == BlueStyle <==> category == "meeting" || category == "deadline"
    ensures style == RedStyle <==> category == "holiday"
    ensures style == GrayStyle
            <==> category !in {"birthday", "social", "meeting", "deadline", "holiday"}
  {
    match category
    case "birthday" => GreenStyle
    case "social" => GreenStyle
    case "meeting" => BlueStyle
    case "deadline" => BlueStyle
    case "holiday" => RedStyle
    case _ => GrayStyle
  }

  // ---------------------------------------------------------------------
  // The event list

  /** The modal's form (`newEvent`). */
  datatype EventForm = EventForm(
    title: string,
    location: string,
    description: string,
    category: string,
    time: string,
    allDay: bool)

  const DefaultForm := EventForm("", "", "", "social", "", false)

  /** `{ ...newEvent, date }`: the form's fields with the given date text, and no id. */
  function EventFromForm(form: EventForm, date: string): (e: Event)
    ensures e.id == None && e.date == date
    ensures e.title == form.title && e.location == form.location
    ensures e.description == form.description && e.category == form.category
    ensures e.time == form.time && e.allDay == form.allDay
  {
    Event(None, form.title, date, form.time, form.allDay, form.location, form.description, form.category)
  }

  /** The list `handleAddEvent` stores: one event from the form, dated
      `YYYY-MM-DD` for `d`, after all the existing ones. */
  function WithAdded(events: seq<Event>, form: EventForm, d: Date): (r: seq<Event>)
    ensures |r| == |events| + 1 && r[..|events|] == events
    ensures r[|events|] == EventFromForm(form, FormatDate(d))
  {
    events + [EventFromForm(form, FormatDate(d))]
  }

  /** What `handleDeleteEvent(title)` removes: events on the selected day with
      exactly that title. With no selected day nothing matches. */
  function MatchesDelete(e: Event, selected: Option<Date>, title: string): (r: bool)
    ensures selected.None? ==> !r
    ensures selected.Some? && ValidDate(selected.value) && FourDigitYear(selected.value) ==>
              (r <==> e.date == FormatDate(selected.value) && e.title == title)
  {
    selected.Some? && OnDay(e, selected.value) && e.title == title
  }

  function WithoutMatching(events: seq<Event>, selected: Option<Date>, title: string): (r: seq<Event>)
    ensures forall e :: e in r <==> e in events && !MatchesDelete(e, selected, title)
    ensures IsSubsequence(r, events)
    ensures forall e :: multiset(r)[e] == if MatchesDelete(e, selected, title) then 0 else multiset(events)[e]
  {
    Filter(events, (e: Event) => !MatchesDelete(e, selected, title))
  }

  /** The session state behind the month view: the event list, the modal's
      form and the selected day (`modalDate`). */
  class EventStore {
    var events: seq<Event>
    var newEvent: EventForm
    var modalDate: Option<Date>

    constructor (initialEvents: seq<Event>)
      ensures events == initialEvents && newEvent == DefaultForm && modalDate == None
    {
      events := initialEvents;
      newEvent := DefaultForm;
      modalDate := None;
    }

    /** Clicking a cell, or the edit button, selects a day. */
    method SelectDay(d: Date)
      modifies this
      ensures modalDate == Some(d)
      ensures events == old(events) && newEvent == old(newEvent)
    {
      modalDate := Some(d);
    }

    /** The modal's inputs replace the form. */
    method EditForm(form: EventForm)
      modifies this
      ensures newEvent == form
      ensures events == old(events) && modalDate == old(modalDate)
    {
      newEvent := form;
    }

    /** `getEventsForDay(modalDate)`: the list the modal shows. */
    function SelectedDayEvents(): (r: seq<Event>)
      reads this
      ensures modalDate.None? ==> r == []
      ensures modalDate.Some? ==> r == EventsForDay(events, modalDate.value)
    {
      match modalDate
      case None => []
      case Some(d) => EventsForDay(events, d)
    }

    /** `handleAddEvent`: nothing without a selected day; otherwise append
        the form's event for that day and reset the form. */
    method AddEvent()
      modifies this
      ensures modalDate == old(modalDate)
      ensures old(modalDate).None? ==> events == old(events) && newEvent == old(newEvent)
      ensures old(modalDate).Some? ==>
                events == WithAdded(old(events), old(newEvent), old(modalDate).value)
                && newEvent == DefaultForm
    {
      if modalDate.None? {
        return;
      }
      events := events + [EventFromForm(newEvent, FormatDate(modalDate.value))];
      newEvent := DefaultForm;
    }

    /** `handleDeleteEvent(titleToDelete)`. */
    method DeleteEvent(titleToDelete: string)
      modifies this
      ensures events == WithoutMatching(old(events), old(modalDate), titleToDelete)
      ensures newEvent == old(newEvent) && modalDate == old(modalDate)
    {
      var selected := modalDate;
      events := Filter(events, (e: Event) => !MatchesDelete(e, selected, titleToDelete));
    }
  }

  // ---------------------------------------------------------------------
  // What the list operations promise

  /** After adding on day d, the day's events are the old ones followed by
      the new one: formatting the day and reading it back finds the day. */
  lemma AddedEventFoundOnDay(events: seq<Event>, form: EventForm, d: Date)
    requires ValidDate(d) && FourDigitYear(d)
    ensures EventsForDay(WithAdded(events, form, d), d)
            == EventsForDay(events, d) + [EventFromForm(form, FormatDate(d))]
  {
    var e := EventFromForm(form, FormatDate(d));
    FormatParseRoundTrip(d);
    FilterAppend(events, [e], (x: Event) => OnDay(x, d));
  }

  /** Adding on day d leaves every other day's events as they were. */
  lemma AddLeavesOtherDays(events: seq<Event>, form: EventForm, d: Date, other: Date)
    requires ValidDate(d) && !SameDay(d, other)
    ensures EventsForDay(WithAdded(events, form, d), other) == EventsForDay(events, other)
  {
    var e := EventFromForm(form, FormatDate(d));
    FormatReadsBackAsItself(d);
    FilterAppend(events, [e], (x: Event) => OnDay(x, other));
  }

  /** Deleting removes every event on the selected day with that title,
      however many there are, and only those. */
  lemma DeleteRemovesAllMatches(events: seq<Event>, d: Date, title: string)
    ensures forall e :: e in WithoutMatching(events, Some(d), title) ==> !(OnDay(e, d) && e.title == title)
    ensures |WithoutMatching(events, Some(d), title)|
            == |events| - |Filter(events, (e: Event) => MatchesDelete(e, Some(d), title))|
  {
    FilterSplit(events, (e: Event) => MatchesDelete(e, Some(d), title),
                (e: Event) => !MatchesDelete(e, Some(d), title));
  }

  /** A predicate and its negation split a list between them. */
  lemma {:induction false} FilterSplit(s: seq<Event>, p: Event -> bool, q: Event -> bool)
    requires forall x :: q(x) == !p(x)
    ensures |Filter(s, q)| == |s| - |Filter(s, p)|
  {
    if |s| > 0 {
      FilterSplit(s[1..], p, q);
    }
  }

  /** Deleting when nothing matches changes nothing. */
  lemma DeleteWithoutMatchIsNoOp(events: seq<Event>, selected: Option<Date>, title: string)
    requires forall e :: e in events ==> !MatchesDelete(e, selected, title)
    ensures WithoutMatching(events, selected, title) == events
  {
    FilterKeepsAll(events, (e: Event) => !MatchesDelete(e, selected, title));
  }

  /** Deleting twice is deleting once. */
  lemma DeleteIdempotent(events: seq<Event>, selected: Option<Date>, title: string)
    ensures WithoutMatching(WithoutMatching(events, selected, title), selected, title)
            == WithoutMatching(events, selected, title)
  {
    FilterIdempotent(events, (e: Event) => !MatchesDelete(e, selected, title));
  }

  /** Adding an event and deleting its (day, title) restores the list, when
      no earlier event had that day and title. */
  lemma AddThenDeleteRestores(events: seq<Event>, form: EventForm, d: Date)
    requires ValidDate(d) && FourDigitYear(d)
    requires forall e :: e in events ==> !(OnDay(e, d) && e.title == form.title)
    ensures WithoutMatching(WithAdded(events, form, d), Some(d), form.title) == events
  {
    var e := EventFromForm(form, FormatDate(d));
    FormatParseRoundTrip(d);
    var keep := (x: Event) => !MatchesDelete(x, Some(d), form.title);
    FilterAppend(events, [e], keep);
    FilterKeepsAll(events, keep);
  }

  // ---------------------------------------------------------------------
  // The year shift of the date reader as written

  /** `dayjs(event.date).isSame(date, 'day')` as written: dayjs hands the
      fields of the date text to `new Date`, which takes years 0 to 99 as
      1900 to 1999. So no event is ever on a day before year 100, and on a
      valid day of year 100 or later outside the 1900s the test agrees with
      the strict reading. */
  function OnDayAsWritten(e: Event, d: Date): (r: bool)
    ensures r ==> 100 <= d.year <= 9999
    ensures ValidDate(d) && d.year >= 100 && OnDay(e, d) ==> r
    ensures ValidDate(d) && d.year >= 100 && !(1900 <= d.year <= 1999) ==> (r <==> OnDay(e, d))
  {
    var p := ParseDayjs(e.date);
    var r := p.Some? && SameDay(p.value, d);
    assert (r ==> 100 <= d.year <= 9999)
           && (d.year >= 100 && !(1900 <= d.year <= 1999) ==> (r <==> OnDay(e, d))) by {
      if p.Some? {
        ParseDayjsYearRange(e.date);
        if ParseFullDate(e.date).value.year < 100 {
          ParseDayjsYear(e.date);
        }
      }
    }
    r
  }

  /** `getEventsForDay(date)` as written. */
  function EventsForDayAsWritten(events: seq<Event>, d: Date): (r: seq<Event>)
    ensures forall e :: e in r <==> e in events && OnDayAsWritten(e, d)
    ensures IsSubsequence(r, events)
    ensures forall e :: multiset(r)[e] == if OnDayAsWritten(e, d) then multiset(events)[e] else 0
  {
    Filter(events, (e: Event) => OnDayAsWritten(e, d))
  }

  /** The delete test of `handleDeleteEvent` as written. Deleting on a day
      before year 100 matches nothing; on a valid day of year 100 or later
      outside the 1900s it matches what the strict test matches. */
  function MatchesDeleteAsWritten(e: Event, selected: Option<Date>, title: string): (r: bool)
    ensures selected.None? ==> !r
    ensures selected.Some? && selected.value.year < 100 ==> !r
    ensures (selected.Some? && ValidDate(selected.value) && selected.value.year >= 100 &&
             !(1900 <= selected.value.year <= 1999)) ==> (r <==> MatchesDelete(e, selected, title))
  {
    selected.Some? && OnDayAsWritten(e, selected.value) && e.title == title
  }

  /** `handleDeleteEvent(title)` as written. */
  function WithoutMatchingAsWritten(events: seq<Event>, selected: Option<Date>, title: string): (r: seq<Event>)
    ensures forall e :: e in r <==> e in events && !MatchesDeleteAsWritten(e, selected, title)
    ensures IsSubsequence(r, events)
    ensures forall e :: multiset(r)[e] == if MatchesDeleteAsWritten(e, selected, title) then 0 else multiset(events)[e]
  {
    Filter(events, (e: Event) => !MatchesDeleteAsWritten(e, selected, title))
  }

  /** dayjs reads the text "0050-03-15" as 1950-03-15. */
  lemma EarlyYearRead()
    ensures ParseDayjs(FormatDate(Date(50, 3, 15))) == Some(Date(1950, 3, 15))
  {
    FormatParseRoundTrip(Date(50, 3, 15));
    ShiftWithinMonth(Date(50, 3, 15));
  }

  /** As written, an event added on day d is listed on the day dayjs reads
      its date text as, and not on d when that is another day. */
  lemma AddedEventListedWhereRead(events: seq<Event>, form: EventForm, d: Date, read: Date)
    requires ParseDayjs(FormatDate(d)) == Some(read) && read != d
    ensures EventsForDayAsWritten(WithAdded(events, form, d), d) == EventsForDayAsWritten(events, d)
    ensures EventsForDayAsWritten(WithAdded(events, form, d), read)
            == EventsForDayAsWritten(events, read) + [EventFromForm(form, FormatDate(d))]
  {
    var e := EventFromForm(form, FormatDate(d));
    assert !OnDayAsWritten(e, d) && OnDayAsWritten(e, read);
    FilterAppend(events, [e], (x: Event) => OnDayAsWritten(x, d));
    FilterAppend(events, [e], (x: Event) => OnDayAsWritten(x, read));
    assert [e][1..] == [];
    assert Filter([e], (x: Event) => OnDayAsWritten(x, read)) == [e];
  }

  /** As written, an event added on 0050-03-15 is stored as "0050-03-15",
      is not listed on that day, and is listed on 1950-03-15 instead. */
  lemma EarlyYearAddMissesItsDay(events: seq<Event>, form: EventForm)
    ensures EventsForDayAsWritten(WithAdded(events, form, Date(50, 3, 15)), Date(50, 3, 15))
            == EventsForDayAsWritten(events, Date(50, 3, 15))
    ensures EventsForDayAsWritten(WithAdded(events, form, Date(50, 3, 15)), Date(1950, 3, 15))
            == EventsForDayAsWritten(events, Date(1950, 3, 15)) + [EventFromForm(form, FormatDate(Date(50, 3, 15)))]
  {
    EarlyYearRead();
    AddedEventListedWhereRead(events, form, Date(50, 3, 15), Date(1950, 3, 15));
  }

  /** As written, deleting on a day before year 100 removes nothing. */
  lemma EarlyYearDeleteIsNoOp(events: seq<Event>, d: Date, title: string)
    requires d.year < 100
    ensures WithoutMatchingAsWritten(events, Some(d), title) == events
  {
    FilterKeepsAll(events, (e: Event) => !MatchesDeleteAsWritten(e, Some(d), title));
  }

  /** As written, deleting the title of an event added on 0050-03-15 keeps
      it when 0050-03-15 is selected, and removes it when 1950-03-15 is. */
  lemma EarlyYearDeleteMissesItsDay(events: seq<Event>, form: EventForm)
    ensures EventFromForm(form, FormatDate(Date(50, 3, 15)))
            in WithoutMatchingAsWritten(WithAdded(events, form, Date(50, 3, 15)), Some(Date(50, 3, 15)), form.title)
    ensures EventFromForm(form, FormatDate(Date(50, 3, 15)))
            !in WithoutMatchingAsWritten(WithAdded(events, form, Date(50, 3, 15)), Some(Date(1950, 3, 15)), form.title)
  {
    EarlyYearRead();
    var added := WithAdded(events, form, Date(50, 3, 15));
    assert added[|events|] in added;
  }

  /** As written, when dayjs reads the text of day d as another day, the
      month view lists an event dated with that text on the other day, while
      the `Calendar` component lists it only under d's key. */
  lemma QueriesDisagreeWhereRead(e: Event, d: Date, read: Date)
    requires ValidDate(d) && e.date == FormatDate(d)
    requires ParseDayjs(FormatDate(d)) == Some(read) && read != d
    ensures EventsForDayAsWritten([e], read) == [e]
    ensures Calendar.EventsForDate([e], FormatDate(read)) == []
  {
    FormatDateInjective(d, read);
    ReadDayListsEvent(e, read);
    KeyListOmitsEvent(e, FormatDate(read));
  }

  lemma ReadDayListsEvent(e: Event, read: Date)
    requires ParseDayjs(e.date) == Some(read)
    ensures EventsForDayAsWritten([e], read) == [e]
  {
    assert OnDayAsWritten(e, read);
    assert [e][1..] == [];
    assert Filter([e], (x: Event) => OnDayAsWritten(x, read)) == [e];
  }

  lemma KeyListOmitsEvent(e: Event, key: string)
    requires e.date != key
    ensures Calendar.EventsForDate([e], key) == []
  {
  }

  /** The 0050-03-15 instance: an event dated "0050-03-15" is listed on
      1950-03-15 by the month view and not by the `Calendar` component. */
  lemma EarlyYearQueriesDisagree(e: Event)
    requires e.date == FormatDate(Date(50, 3, 15))
    ensures EventsForDayAsWritten([e], Date(1950, 3, 15)) == [e]
    ensures Calendar.EventsForDate([e], FormatDate(Date(1950, 3, 15))) == []
  {
    EarlyYearRead();
    QueriesDisagreeWhereRead(e, Date(50, 3, 15), Date(1950, 3, 15));
  }

  // ---------------------------------------------------------------------
  // The list operations as written, from year 100 on

  /** As written, an event added on a day from year 100 to 9999 is listed on
      that day, after the day's earlier events. */
  lemma AddedEventFoundOnDayAsWritten(events: seq<Event>, form: EventForm, d: Date)
    requires ValidDate(d) && 100 <= d.year <= 9999
    ensures EventsForDayAsWritten(WithAdded(events, form, d), d)
            == EventsForDayAsWritten(events, d) + [EventFromForm(form, FormatDate(d))]
  {
    var e := EventFromForm(form, FormatDate(d));
    FormatParseRoundTrip(d);
    assert OnDayAsWritten(e, d);
    FilterAppend(events, [e], (x: Event) => OnDayAsWritten(x, d));
    assert [e][1..] == [];
    assert Filter([e], (x: Event) => OnDayAsWritten(x, d)) == [e];
  }

  /** As written, adding on a day of year 100 or later leaves every other
      day's events as they were. */
  lemma AddLeavesOtherDaysAsWritten(events: seq<Event>, form: EventForm, d: Date, other: Date)
    requires ValidDate(d) && d.year >= 100 && !SameDay(d, other)
    ensures EventsForDayAsWritten(WithAdded(events, form, d), other) == EventsForDayAsWritten(events, other)
  {
    var e := EventFromForm(form, FormatDate(d));
    FormatReadsBackAsItself(d);
    assert !OnDayAsWritten(e, other);
    FilterAppend(events, [e], (x: Event) => OnDayAsWritten(x, other));
  }

  /** As written, adding an event on a day from year 100 to 9999 and deleting
      its title there restores the list, when no earlier event matched. */
  lemma AddThenDeleteRestoresAsWritten(events: seq<Event>, form: EventForm, d: Date)
    requires ValidDate(d) && 100 <= d.year <= 9999
    requires forall e :: e in events ==> !(OnDayAsWritten(e, d) && e.title == form.title)
    ensures WithoutMatchingAsWritten(WithAdded(events, form, d), Some(d), form.title) == events
  {
    var e := EventFromForm(form, FormatDate(d));
    FormatParseRoundTrip(d);
    assert OnDayAsWritten(e, d);
    var keep := (x: Event) => !MatchesDeleteAsWritten(x, Some(d), form.title);
    FilterAppend(events, [e], keep);
    FilterKeepsAll(events, keep);
  }

  /** As written, the two event queries agree on a valid day of year 100 to
      9999 outside the 1900s. */
  lemma EventQueriesAgreeAsWritten(events: seq<Event>, d: Date)
    requires ValidDate(d) && 100 <= d.year <= 9999 && !(1900 <= d.year <= 1999)
    ensures EventsForDayAsWritten(events, d) == Calendar.EventsForDate(events, FormatDate(d))
  {
    FilterAgree(events, (e: Event) => OnDayAsWritten(e, d), (e: Event) => e.date == FormatDate(d));
  }
}

=== FILE: calendar.dfy ===
/** The Sunday-first `Calendar` component: for each grid date it derives the
    cell key (`YYYY-MM-DD`), whether the date is today, whether it lies in
    the displayed month, and the events whose date text equals the key.
    "Today" is a parameter. */
module Calendar {
  import opened Wrappers
  import opened Gregorian
  import opened FullDate
  import opened Events
  import opened Subsequences
  import opened DateUtils

  /** `getEventsForDate(dateStr)`: the events whose date text is exactly
      `dateStr`, in list order; no calendar-day normalisation. */
  function EventsForDate(events: seq<Event>, dateStr: string): (r: seq<Event>)
    ensures forall e :: e in r <==> e in events && e.date == dateStr
    ensures IsSubsequence(r, events)
    ensures forall e :: multiset(r)[e] == if e.date == dateStr then multiset(events)[e] else 0
  {
    Filter(events, (e: Event) => e.date == dateStr)
  }

  datatype Cell = Cell(date: Date, key: string, isToday: bool, inCurrentMonth: bool, events: seq<Event>)

  /** One rendered cell: its key, the today and current-month flags, and its
      events. The key is the date's `YYYY-MM-DD` text, and reads back as the
      cell's date wherever the year has four digits; the events are the
      ordered list `getEventsForDate` gives for that key. */
  function CellOf(date: Date, month: int, today: Date, events: seq<Event>): (c: Cell)
    ensures c.date == date
    ensures c.key == FormatDate(date)
    ensures c.events == EventsForDate(events, c.key)
    ensures c.inCurrentMonth <==> date.month - 1 == month
    ensures c.isToday <==> SameDay(date, today)
    ensures ValidDate(date) && FourDigitYear(date) ==> ParseFullDate(c.key) == Some(date)
    ensures forall e :: e in c.events <==> e in events && e.date == c.key
  {
    var dateStr := FormatDate(date);
    assert ValidDate(date) && FourDigitYear(date) ==> ParseFullDate(dateStr) == Some(date) by {
      if ValidDate(date) && FourDigitYear(date) {
        FormatParseRoundTrip(date);
      }
    }
    Cell(date, dateStr, SameDay(date, today), date.month - 1 == month, EventsForDate(events, dateStr))
  }

  function Cells(year: int, month: int, today: Date, events: seq<Event>): (cs: seq<Cell>)
    ensures |cs| == |SundayGrid(year, month)|
    ensures forall i :: 0 <= i < |cs| ==> cs[i] == CellOf(SundayGrid(year, month)[i], month, today, events)
  {
    var days := SundayGrid(year, month);
    seq(|days|, i requires 0 <= i < |days| => CellOf(days[i], month, today, events))
  }

  /** The column headings, Sunday first. */
  const Header: seq<string> := ["Sun", "Mon", "Tue", "Wed", "Thu", "Fri", "Sat"]

  // ---------------------------------------------------------------------

  /** A cell is marked in the current month exactly when it is one of the
      month's own days; a month prop outside 0..11 marks no cell. */
  lemma InCurrentMonthExactly(year: int, month: int, today: Date, events: seq<Event>, i: int)
    requires 0 <= i < |Cells(year, month, today, events)|
    ensures var (y, m) := NormalizeMonth(year, month);
            Cells(year, month, today, events)[i].inCurrentMonth
            <==> 0 <= month < 12 && StartDay(year, month) <= i < StartDay(year, month) + DaysInMonth(y, m)
  {
    var (y, m) := NormalizeMonth(year, month);
    var s := StartDay(year, month);
    var dim := DaysInMonth(y, m);
    var date := SundayGrid(year, month)[i];
    assert Cells(year, month, today, events)[i].inCurrentMonth <==> date.month - 1 == month;
    if i < s {
      SundayGridLeadingCell(year, month, i);
      OtherMonthNoMatch(year, month, PrevMonth(y, m).1);
    } else if i < s + dim {
      SundayGridMonthDay(year, month, i - s + 1);
      ShownMonthMatch(year, month);
    } else {
      SundayGridTrailingCell(year, month, i);
      OtherMonthNoMatch(year, month, NextMonth(y, m).1);
    }
  }

  /** The shown month matches the `month` prop exactly when the prop is in 0..11. */
  lemma ShownMonthMatch(year: int, month: int)
    ensures NormalizeMonth(year, month).1 - 1 == month <==> 0 <= month < 12
  {
  }

  /** The months before and after the shown one never match the `month` prop. */
  lemma OtherMonthNoMatch(year: int, month: int, mo: int)
    requires 1 <= mo <= 12
    requires var (y, m) := NormalizeMonth(year, month);
             mo == PrevMonth(y, m).1 || mo == NextMonth(y, m).1
    ensures mo - 1 != month
  {
  }

  /** At most one cell is today. */
  lemma AtMostOneToday(year: int, month: int, today: Date, events: seq<Event>, i: int, j: int)
    requires 0 <= i < j < |Cells(year, month, today, events)|
    ensures !(Cells(year, month, today, events)[i].isToday && Cells(year, month, today, events)[j].isToday)
  {
    SundayGridDistinct(year, month, i, j);
  }

  /** Cell keys are pairwise distinct. */
  lemma KeysDistinct(year: int, month: int, today: Date, events: seq<Event>, i: int, j: int)
    requires 0 <= i < j < |Cells(year, month, today, events)|
    ensures Cells(year, month, today, events)[i].key != Cells(year, month, today, events)[j].key
  {
    SundayGridCell(year, month, i);
    SundayGridCell(year, month, j);
    SundayGridDistinct(year, month, i, j);
    FormatDateInjective(SundayGrid(year, month)[i], SundayGrid(year, month)[j]);
  }

  /** An event whose date text is the key of cell i is listed in cell i and
      in no other cell. */
  lemma EventShownOnce(year: int, month: int, today: Date, events: seq<Event>, e: Event, i: int, j: int)
    requires e in events
    requires 0 <= i < |Cells(year, month, today, events)| && 0 <= j < |Cells(year, month, today, events)|
    requires e.date == FormatDate(SundayGrid(year, month)[i])
    ensures e in Cells(year, month, today, events)[j].events <==> i == j
  {
    if i < j {
      KeysDistinct(year, month, today, events, i, j);
    } else if j < i {
      KeysDistinct(year, month, today, events, j, i);
    }
  }

  /** The heading over each cell names the cell's weekday (the first three
      letters of its RFC 3339 Appendix B name). */
  lemma HeaderMatchesGrid(year: int, month: int, i: int)
    requires 0 <= i < |SundayGrid(year, month)|
    ensures Header[i % 7] == DayNames[Weekday(SundayGrid(year, month)[i])][..3]
  {
    SundayGridWeekday(year, month, i);
  }
}

=== FILE: date_utils.dfy ===
/** `getDaysInMonthGrid(year, month)`: the dates shown by a Sunday-first
    month view, a whole number of weeks of consecutive days covering the
    month. `month` is zero-based, as dayjs's `month(...)` takes it. */
module DateUtils {
  import opened Gregorian

  /** `Math.ceil((startDay + daysInMonth) / 7) * 7`: the least multiple of 7
      that holds the leading cells and the month. */
  function TotalCells(startDay: nat, daysInMonth: nat): (n: nat)
    ensures n % 7 == 0
    ensures startDay + daysInMonth <= n < startDay + daysInMonth + 7
  {
    (startDay + daysInMonth + 6) / 7 * 7
  }

  /** `startOfMonth.day()`: how many cells of the previous month lead the grid. */
  function StartDay(year: int, month: int): (s: int)
    ensures 0 <= s < 7
  {
    var (y, m) := NormalizeMonth(year, month);
    Weekday(FirstOfMonth(y, m))
  }

  /** The grid `getDaysInMonthGrid` builds: cell i is the 1st of the month,
      minus `startDay` days, plus i days. */
  function SundayGrid(year: int, month: int): seq<Date> {
    var (y, m) := NormalizeMonth(year, month);
    var first := FirstOfMonth(y, m);
    var startDay := StartDay(year, month);
    var total := TotalCells(startDay, DaysInMonth(y, m));
    seq(total, i requires 0 <= i < total => AddDays(AddDays(first, -startDay), i))
  }

  method DaysInMonthGrid(year: int, month: int) returns (dates: seq<Date>)
    ensures dates == SundayGrid(year, month)
  {
    var (y, m) := NormalizeMonth(year, month);
    var startOfMonth := Date(y, m, 1);
    var startDay := Weekday(startOfMonth);
    var daysInMonth := DaysInMonth(y, m);
    var totalCells := (startDay + daysInMonth + 6) / 7 * 7;
    dates := [];
    for i := 0 to totalCells
      invariant |dates| == i
      invariant forall k :: 0 <= k < i ==> dates[k] == AddDays(AddDays(startOfMonth, -startDay), k)
    {
      var date := AddDays(AddDays(startOfMonth, -startDay), i);
      dates := dates + [date];
    }
  }

  // ---------------------------------------------------------------------
  // What the grid promises

  /** Every cell is a real date, and cell i lies i - startDay days after the 1st. */
  lemma SundayGridCell(year: int, month: int, i: int)
    requires 0 <= i < |SundayGrid(year, month)|
    ensures ValidDate(SundayGrid(year, month)[i])
    ensures SundayGrid(year, month)[i]
            == AddDays(FirstOfMonth(NormalizeMonth(year, month).0, NormalizeMonth(year, month).1),
                       i - StartDay(year, month))
  {
    var (y, m) := NormalizeMonth(year, month);
    AddDaysAdd(FirstOfMonth(y, m), -StartDay(year, month), i);
  }

  /** The cell count is a multiple of 7 with 0 to 6 trailing cells: 28, 35 or
      42, and 28 only for a 28-day February that starts on a Sunday. */
  lemma SundayGridLength(year: int, month: int)
    ensures |SundayGrid(year, month)| % 7 == 0
    ensures var (y, m) := NormalizeMonth(year, month);
            StartDay(year, month) + DaysInMonth(y, m) <= |SundayGrid(year, month)|
              < StartDay(year, month) + DaysInMonth(y, m) + 7
    ensures |SundayGrid(year, month)| in {28, 35, 42}
    ensures |SundayGrid(year, month)| == 28
            <==> var (y, m) := NormalizeMonth(year, month);
                 m == 2 && !IsLeapYear(y) && StartDay(year, month) == 0
  {
  }

  /** The first cell is the Sunday on or before the 1st, `startDay` days earlier. */
  lemma SundayGridStartsOnSunday(year: int, month: int)
    ensures |SundayGrid(year, month)| > 0
    ensures Weekday(SundayGrid(year, month)[0]) == 0
    ensures var (y, m) := NormalizeMonth(year, month);
            DayNumber(SundayGrid(year, month)[0]) == DayNumber(FirstOfMonth(y, m)) - StartDay(year, month)
  {
    var (y, m) := NormalizeMonth(year, month);
    var first := FirstOfMonth(y, m);
    var s := StartDay(year, month);
    SundayGridLength(year, month);
    SundayGridCell(year, month, 0);
    AddDaysNumber(first, -s);
    WeekdayAfter(first, -s, 0);
  }

  /** Each cell is the day after the one before it: no gaps, no repeats. */
  lemma SundayGridConsecutive(year: int, month: int, i: int)
    requires 0 <= i < |SundayGrid(year, month)| - 1
    ensures ValidDate(SundayGrid(year, month)[i])
    ensures SundayGrid(year, month)[i + 1] == NextDay(SundayGrid(year, month)[i])
  {
    var (y, m) := NormalizeMonth(year, month);
    var s := StartDay(year, month);
    SundayGridCell(year, month, i);
    SundayGridCell(year, month, i + 1);
    ShiftedNext(FirstOfMonth(y, m), i - s, SundayGrid(year, month)[i], SundayGrid(year, month)[i + 1]);
  }

  /** Day numbers run up by one per cell, so cells at different indices are
      different dates. */
  lemma SundayGridDayNumber(year: int, month: int, i: int)
    requires 0 <= i < |SundayGrid(year, month)|
    ensures var (y, m) := NormalizeMonth(year, month);
            DayNumber(SundayGrid(year, month)[i]) == DayNumber(FirstOfMonth(y, m)) - StartDay(year, month) + i
  {
    var (y, m) := NormalizeMonth(year, month);
    SundayGridCell(year, month, i);
    ShiftedNumber(FirstOfMonth(y, m), i - StartDay(year, month), SundayGrid(year, month)[i]);
  }

  lemma SundayGridDistinct(year: int, month: int, i: int, j: int)
    requires 0 <= i < j < |SundayGrid(year, month)|
    ensures SundayGrid(year, month)[i] != SundayGrid(year, month)[j]
  {
    SundayGridDayNumber(year, month, i);
    SundayGridDayNumber(year, month, j);
  }

  /** Column i % 7 of the grid holds weekday i % 7 (0 = Sunday). */
  lemma SundayGridWeekday(year: int, month: int, i: int)
    requires 0 <= i < |SundayGrid(year, month)|
    ensures Weekday(SundayGrid(year, month)[i]) == i % 7
  {
    var (y, m) := NormalizeMonth(year, month);
    SundayGridCell(year, month, i);
    ShiftedWeekday(FirstOfMonth(y, m), i - StartDay(year, month), SundayGrid(year, month)[i]);
  }

  /** Day k of the month sits at index startDay + k - 1: the 1st at index
      `startDay`, the last day at `startDay + daysInMonth - 1`. */
  lemma SundayGridMonthDay(year: int, month: int, k: int)
    requires var (y, m) := NormalizeMonth(year, month); 1 <= k <= DaysInMonth(y, m)
    ensures StartDay(year, month) + k - 1 < |SundayGrid(year, month)|
    ensures var (y, m) := NormalizeMonth(year, month);
            SundayGrid(year, month)[StartDay(year, month) + k - 1] == Date(y, m, k)
  {
    var (y, m) := NormalizeMonth(year, month);
    SundayGridLength(year, month);
    SundayGridCell(year, month, StartDay(year, month) + k - 1);
    AddDaysWithinMonth(FirstOfMonth(y, m), k - 1);
  }

  /** ... and nowhere else: every day of the month appears exactly once. */
  lemma SundayGridMonthDayOnce(year: int, month: int, i: int, k: int)
    requires 0 <= i < |SundayGrid(year, month)|
    requires var (y, m) := NormalizeMonth(year, month); 1 <= k <= DaysInMonth(y, m)
    ensures var (y, m) := NormalizeMonth(year, month);
            SundayGrid(year, month)[i] == Date(y, m, k) <==> i == StartDay(year, month) + k - 1
  {
    var (y, m) := NormalizeMonth(year, month);
    SundayGridMonthDay(year, month, k);
    var j := StartDay(year, month) + k - 1;
    if i < j {
      SundayGridDistinct(year, month, i, j);
    } else if j < i {
      SundayGridDistinct(year, month, j, i);
    }
  }

  /** Cells before index `startDay` are the last days of the previous month. */
  lemma SundayGridLeadingCell(year: int, month: int, i: int)
    requires 0 <= i < StartDay(year, month)
    ensures i < |SundayGrid(year, month)|
    ensures var (y, m) := NormalizeMonth(year, month);
            var (py, pm) := PrevMonth(y, m);
            SundayGrid(year, month)[i] == Date(py, pm, DaysInMonth(py, pm) - StartDay(year, month) + i + 1)
  {
    var (y, m) := NormalizeMonth(year, month);
    SundayGridLength(year, month);
    SundayGridCell(year, month, i);
    ShiftedIntoPrevMonth(FirstOfMonth(y, m), i - StartDay(year, month), SundayGrid(year, month)[i]);
  }

  /** Cells after the month's last day are the first days of the next month. */
  lemma SundayGridTrailingCell(year: int, month: int, i: int)
    requires var (y, m) := NormalizeMonth(year, month);
             StartDay(year, month) + DaysInMonth(y, m) <= i < |SundayGrid(year, month)|
    ensures var (y, m) := NormalizeMonth(year, month);
            var (ny, nm) := NextMonth(y, m);
            SundayGrid(year, month)[i] == Date(ny, nm, i - StartDay(year, month) - DaysInMonth(y, m) + 1)
  {
    var (y, m) := NormalizeMonth(year, month);
    SundayGridLength(year, month);
    SundayGridCell(year, month, i);
    ShiftedIntoNextMonth(FirstOfMonth(y, m), i - StartDay(year, month), SundayGrid(year, month)[i]);
  }
}

=== FILE: events.dfy ===
/** The event record shared by the month view, the day modal and the
    calendar component. Dates are kept as the text the record carries
    (`YYYY-MM-DD` for events created in the app); `id` is present only on
    seeded events. */
module Events {
  import opened Wrappers

  datatype Event = Event(
    id: Option<string>,
    title: string,
    date: string,
    time: string,
    allDay: bool,
    location: string,
    description: string,
    category: string)
}

=== FILE: full_date.dfy ===
/** The `YYYY-MM-DD` text form of a date: what dayjs's `format('YYYY-MM-DD')`
    writes, and the `full-date` production of RFC 3339, section 5.6, that
    event dates are read back from. */
module FullDate {
  import opened Wrappers
  import opened Gregorian

  predicate IsDigit(c: char) {
    '0' <= c <= '9'
  }

  predicate AllDigits(s: string) {
    forall i :: 0 <= i < |s| ==> IsDigit(s[i])
  }

  function DigitChar(n: int): (c: char)
    requires 0 <= n < 10
    ensures IsDigit(c)
  {
    ('0' as int + n) as char
  }

  function DigitValue(c: char): (n: int)
    requires IsDigit(c)
    ensures 0 <= n < 10 && DigitChar(n) == c
  {
    c as int - '0' as int
  }

  function Pow10(k: nat): nat {
    if k == 0 then 1 else 10 * Pow10(k - 1)
  }

  /** JavaScript's `String(n)` for a non-negative integer: its decimal
      digits, without leading zeros. */
  function NatToString(n: nat): (s: string)
    ensures |s| >= 1 && AllDigits(s)
  {
    if n < 10 then [DigitChar(n)] else NatToString(n / 10) + [DigitChar(n % 10)]
  }

  /** JavaScript's `String(n)` for any integer. */
  function IntToString(n: int): (s: string)
    ensures |s| >= 1
  {
    if n < 0 then "-" + NatToString(-n) else NatToString(n)
  }

  function Zeros(k: nat): (z: string)
    ensures |z| == k && AllDigits(z)
  {
    seq(k, _ => '0')
  }

  /** The padding helper behind dayjs's `YYYY`, `MM` and `DD` tokens: left-pad
      with '0' up to `width` characters, never truncating. Those tokens only
      ever pass it a number's non-empty text. */
  function PadStart(s: string, width: nat): (r: string)
    requires |s| > 0
    ensures |r| == if |s| >= width then |s| else width
    ensures r[|r| - |s|..] == s
    ensures forall i :: 0 <= i < |r| - |s| ==> r[i] == '0'
  {
    if |s| >= width then s else Zeros(width - |s|) + s
  }

  /** `date.format('YYYY-MM-DD')`: the year padded to at least four
      characters, then `-MM-DD`; exactly ten characters for a valid date
      with a four-digit year. */
  function FormatDate(d: Date): (r: string)
    ensures |r| >= 10
    ensures ValidDate(d) && FourDigitYear(d) ==> |r| == 10
  {
    var ys := PadStart(IntToString(d.year), 4);
    var ms := PadStart(IntToString(d.month), 2);
    var ds := PadStart(IntToString(d.day), 2);
    assert ValidDate(d) && FourDigitYear(d) ==> |ys| + |ms| + |ds| == 8 by {
      if ValidDate(d) && FourDigitYear(d) {
        YearWidth(d);
        FieldWidths(d);
      }
    }
    ys + "-" + ms + "-" + ds
  }

  /** A four-digit year is written in exactly four digits. */
  lemma YearWidth(d: Date)
    requires FourDigitYear(d)
    ensures |PadStart(IntToString(d.year), 4)| == 4
  {
    assert Pow10(4) == 10000;
    NatToStringLength(d.year, 4);
  }

  /** The month and the day of a valid date are written in exactly two digits. */
  lemma FieldWidths(d: Date)
    requires ValidDate(d)
    ensures |PadStart(IntToString(d.month), 2)| == 2 && |PadStart(IntToString(d.day), 2)| == 2
  {
    assert Pow10(2) == 100;
    NatToStringLength(d.month, 2);
    NatToStringLength(d.day, 2);
  }

  /** The number a string of decimal digits denotes. */
  function DigitsValue(s: string): (n: nat)
    requires AllDigits(s)
    ensures n < Pow10(|s|)
  {
    if |s| == 0 then 0 else DigitsValue(s[..|s| - 1]) * 10 + DigitValue(s[|s| - 1])
  }

  /** Reads an RFC 3339 `full-date`: four year digits, two month digits and
      two day digits separated by '-', naming a day that exists. */
  function ParseFullDate(s: string): (r: Option<Date>)
    ensures r.Some? ==> ValidDate(r.value) && 0 <= r.value.year <= 9999
  {
    if |s| == 10 && s[4] == '-' && s[7] == '-'
       && AllDigits(s[..4]) && AllDigits(s[5..7]) && AllDigits(s[8..])
    then
      var y, m, d := DigitsValue(s[..4]), DigitsValue(s[5..7]), DigitsValue(s[8..]);
      if 1 <= m <= 12 && 1 <= d <= DaysInMonth(y, m) then Some(Date(y, m, d)) else None
    else None
  }

  /** How dayjs reads the same text: the fields go to `new Date(y, m - 1, d)`,
      which takes a year from 0 to 99 as 1900 + y (and rolls 1900-02-29, which
      does not exist, over to March 1st). */
  function ParseDayjs(s: string): (r: Option<Date>)
    ensures r.None? <==> ParseFullDate(s).None?
    ensures ParseFullDate(s).Some? && ParseFullDate(s).value.year >= 100 ==> r == ParseFullDate(s)
    ensures ParseFullDate(s).Some? && ParseFullDate(s).value.year < 100 ==>
              var p := ParseFullDate(s).value;
              r.Some? && DayNumber(r.value) == DayNumber(Date(p.year + 1900, p.month, 1)) + p.day - 1
    ensures r.Some? ==> ValidDate(r.value)
  {
    var p := ParseFullDate(s);
    if p.Some? && p.value.year < 100 then Some(ShiftEarlyYear(p.value)) else p
  }

  /** `new Date(y + 1900, m - 1, 1)` moved on by `d - 1` days. */
  function ShiftEarlyYear(d: Date): (r: Date)
    requires ValidDate(d)
    ensures ValidDate(r)
    ensures DayNumber(r) == DayNumber(Date(d.year + 1900, d.month, 1)) + d.day - 1
  {
    var first := Date(d.year + 1900, d.month, 1);
    AddDaysNumber(first, d.day - 1);
    AddDays(first, d.day - 1)
  }

  /** dayjs reads a year from 0 to 99 as 1900 + y. */
  lemma ParseDayjsYear(s: string)
    requires ParseFullDate(s).Some? && ParseFullDate(s).value.year < 100
    ensures ParseDayjs(s).Some? && ParseDayjs(s).value.year == ParseFullDate(s).value.year + 1900
  {
    ShiftEarlyYearYear(ParseFullDate(s).value);
  }

  /** The shift keeps the month and day, except that 1900-02-29, which does
      not exist, becomes March 1st; the year is always 1900 + y. */
  lemma ShiftEarlyYearYear(d: Date)
    requires ValidDate(d) && 0 <= d.year < 100
    ensures ShiftEarlyYear(d).year == d.year + 1900
    ensures d != Date(0, 2, 29) ==> ShiftEarlyYear(d) == Date(d.year + 1900, d.month, d.day)
    ensures d == Date(0, 2, 29) ==> ShiftEarlyYear(d) == Date(1900, 3, 1)
  {
    EarlyCenturyMonth(d.year, d.month);
    if d.day <= DaysInMonth(d.year + 1900, d.month) {
      ShiftWithinMonth(d);
    } else {
      assert DaysInMonth(1900, 2) == 28 && NextMonth(1900, 2) == (1900, 3);
      ShiftPastMonthEnd(d);
    }
  }

  lemma ShiftWithinMonth(d: Date)
    requires ValidDate(d) && d.day <= DaysInMonth(d.year + 1900, d.month)
    ensures ShiftEarlyYear(d) == Date(d.year + 1900, d.month, d.day)
  {
    AddDaysWithinMonth(Date(d.year + 1900, d.month, 1), d.day - 1);
  }

  /** A day one past the end of its month in 1900 + y lands on the 1st of
      the next month. */
  lemma ShiftPastMonthEnd(d: Date)
    requires ValidDate(d) && d.day == DaysInMonth(d.year + 1900, d.month) + 1
    ensures ShiftEarlyYear(d) == Date(NextMonth(d.year + 1900, d.month).0, NextMonth(d.year + 1900, d.month).1, 1)
  {
    var next := NextMonth(d.year + 1900, d.month);
    MonthStartStep(d.year + 1900, d.month);
    SameDayIsSameDayNumber(ShiftEarlyYear(d), Date(next.0, next.1, 1));
  }

  /** A month of year y (0 to 99) is as long as the same month of 1900 + y,
      except February of year 0, a leap year, against 1900, which is not. */
  lemma EarlyCenturyMonth(y: int, m: int)
    requires 0 <= y < 100 && 1 <= m <= 12
    ensures DaysInMonth(y + 1900, m) == DaysInMonth(y, m) || (y == 0 && m == 2)
  {
  }

  /** Every date dayjs reads from `YYYY-MM-DD` text lies in the years 100 to
      9999. */
  lemma ParseDayjsYearRange(s: string)
    requires ParseDayjs(s).Some?
    ensures 100 <= ParseDayjs(s).value.year <= 9999
  {
    if ParseFullDate(s).value.year < 100 {
      ParseDayjsYear(s);
    }
  }

  predicate FourDigitYear(d: Date) {
    0 <= d.year <= 9999
  }

  // ---------------------------------------------------------------------
  // Round trip

  lemma {:induction false} DigitsOfNat(n: nat)
    ensures DigitsValue(NatToString(n)) == n
  {
    if n >= 10 {
      DigitsOfNat(n / 10);
      var s := NatToString(n);
      assert s[..|s| - 1] == NatToString(n / 10);
    }
  }

  lemma {:induction false} NatToStringLength(n: nat, w: nat)
    requires 1 <= w && n < Pow10(w)
    ensures |NatToString(n)| <= w
  {
    assert Pow10(1) == 10;
    if n >= 10 {
      NatToStringLength(n / 10, w - 1);
    }
  }

  lemma {:induction false} ZerosValue(k: nat)
    ensures DigitsValue(Zeros(k)) == 0
  {
    if k > 0 {
      assert Zeros(k)[..k - 1] == Zeros(k - 1);
      ZerosValue(k - 1);
    }
  }

  /** Leading zeros do not change the value of a digit string. */
  lemma {:induction false} LeadingZeros(k: nat, s: string)
    requires AllDigits(s)
    ensures AllDigits(Zeros(k) + s)
    ensures DigitsValue(Zeros(k) + s) == DigitsValue(s)
    decreases |s|
  {
    var t := Zeros(k) + s;
    if |s| == 0 {
      assert t == Zeros(k);
      ZerosValue(k);
    } else {
      assert t[..|t| - 1] == Zeros(k) + s[..|s| - 1];
      LeadingZeros(k, s[..|s| - 1]);
    }
  }

  /** A number below 10^w, padded to w digits, reads back as itself. */
  lemma PaddedDigits(n: nat, w: nat)
    requires 1 <= w && n < Pow10(w)
    ensures |PadStart(IntToString(n), w)| == w
    ensures AllDigits(PadStart(IntToString(n), w))
    ensures DigitsValue(PadStart(IntToString(n), w)) == n
  {
    var s := NatToString(n);
    NatToStringLength(n, w);
    DigitsOfNat(n);
    if |s| < w {
      LeadingZeros(w - |s|, s);
    }
  }

  /** Reading the three fields back out of `YYYY-MM-DD` text. */
  lemma ParseFields(ys: string, ms: string, ds: string)
    requires |ys| == 4 && |ms| == 2 && |ds| == 2
    requires AllDigits(ys) && AllDigits(ms) && AllDigits(ds)
    requires ValidDate(Date(DigitsValue(ys), DigitsValue(ms), DigitsValue(ds)))
    ensures ParseFullDate(ys + "-" + ms + "-" + ds)
            == Some(Date(DigitsValue(ys), DigitsValue(ms), DigitsValue(ds)))
  {
    var s := ys + "-" + ms + "-" + ds;
    assert s[..4] == ys && s[5..7] == ms && s[8..] == ds;
  }

  /** Formatting a date and reading it back gives the same calendar day. */
  lemma FormatParseRoundTrip(d: Date)
    requires ValidDate(d) && FourDigitYear(d)
    ensures ParseFullDate(FormatDate(d)) == Some(d)
  {
    assert Pow10(2) == 100 && Pow10(4) == 10000;
    PaddedDigits(d.year, 4);
    PaddedDigits(d.month, 2);
    PaddedDigits(d.day, 2);
    ParseFields(PadStart(IntToString(d.year), 4), PadStart(IntToString(d.month), 2),
                PadStart(IntToString(d.day), 2));
  }

  /** Digit strings of one length with the same value are the same string. */
  lemma {:induction false} SameDigits(a: string, b: string)
    requires AllDigits(a) && AllDigits(b) && |a| == |b|
    requires DigitsValue(a) == DigitsValue(b)
    ensures a == b
    decreases |a|
  {
    if |a| > 0 {
      var n := |a| - 1;
      var pa, pb := DigitsValue(a[..n]), DigitsValue(b[..n]);
      var da, db := DigitValue(a[n]), DigitValue(b[n]);
      assert pa * 10 + da == pb * 10 + db;
      assert pa == pb && da == db;
      SameDigits(a[..n], b[..n]);
      assert a == a[..n] + [a[n]] && b == b[..n] + [b[n]];
    }
  }

  /** Text the reader accepts is exactly the `YYYY-MM-DD` form of the date it
      names: the reader admits no second spelling of a day. */
  lemma ParseFormatRoundTrip(s: string)
    requires ParseFullDate(s).Some?
    ensures FormatDate(ParseFullDate(s).value) == s
  {
    var d := ParseFullDate(s).value;
    var ys, ms, ds := s[..4], s[5..7], s[8..];
    ReadFields(s);
    FieldReadsBack(d.year, ys);
    FieldReadsBack(d.month, ms);
    FieldReadsBack(d.day, ds);
    FormatFields(d);
    JoinFields(s);
  }

  lemma JoinFields(s: string)
    requires |s| == 10 && s[4] == '-' && s[7] == '-'
    ensures s == s[..4] + "-" + s[5..7] + "-" + s[8..]
  {
    assert s == s[..4] + [s[4]] + s[5..7] + [s[7]] + s[8..];
  }

  /** Text that reads as a date is its three digit fields joined by '-'. */
  lemma ReadFields(s: string)
    requires ParseFullDate(s).Some?
    ensures |s| == 10 && s[4] == '-' && s[7] == '-'
    ensures AllDigits(s[..4]) && AllDigits(s[5..7]) && AllDigits(s[8..])
    ensures ParseFullDate(s).value == Date(DigitsValue(s[..4]), DigitsValue(s[5..7]), DigitsValue(s[8..]))
  {
  }

  lemma FormatFields(d: Date)
    ensures FormatDate(d) == PadStart(IntToString(d.year), 4) + "-" + PadStart(IntToString(d.month), 2) + "-" + PadStart(IntToString(d.day), 2)
  {
  }

  /** A field of digits is rebuilt by zero-padding the number it holds. */
  lemma FieldReadsBack(n: nat, t: string)
    requires 1 <= |t| && AllDigits(t) && DigitsValue(t) == n
    ensures PadStart(IntToString(n), |t|) == t
  {
    PaddedDigits(n, |t|);
    SameDigits(PadStart(IntToString(n), |t|), t);
  }

  lemma {:induction false} NatToStringLong(n: nat, w: nat)
    requires Pow10(w) <= n
    ensures |NatToString(n)| > w
  {
    if w > 0 {
      assert Pow10(w - 1) <= n / 10;
      NatToStringLong(n / 10, w - 1);
    }
  }

  /** Whatever the year, the reader finds no date but `d` in the `YYYY-MM-DD`
      form of `d`: a negative year leaves a '-' among the first four
      characters, and a year past 9999 makes the text longer than ten. */
  lemma FormatReadsBackAsItself(d: Date)
    requires ValidDate(d)
    ensures ParseFullDate(FormatDate(d)).Some? ==> ParseFullDate(FormatDate(d)) == Some(d)
  {
    if FourDigitYear(d) {
      FormatParseRoundTrip(d);
    } else if d.year < 0 {
      NegativeYearUnread(d);
    } else {
      LargeYearUnread(d);
    }
  }

  /** dayjs misreads the `YYYY-MM-DD` text of every date with a year from 0
      to 99: it reads the same text as a day 1900 years later. */
  lemma EarlyYearMisread(d: Date)
    requires ValidDate(d) && 0 <= d.year < 100
    ensures ParseDayjs(FormatDate(d)).Some? && ParseDayjs(FormatDate(d)).value.year == d.year + 1900
    ensures ParseDayjs(FormatDate(d)) != Some(d)
  {
    FormatParseRoundTrip(d);
    ParseDayjsYear(FormatDate(d));
  }

  lemma NegativeYearUnread(d: Date)
    requires ValidDate(d) && d.year < 0
    ensures ParseFullDate(FormatDate(d)).None?
  {
    var t := IntToString(d.year);
    var ys := PadStart(t, 4);
    FieldWidths(d);
    assert ys[|ys| - |t|] == t[0] == '-';
    UnreadableYearField(ys, PadStart(IntToString(d.month), 2), PadStart(IntToString(d.day), 2), |ys| - |t|);
  }

  lemma LargeYearUnread(d: Date)
    requires ValidDate(d) && d.year > 9999
    ensures ParseFullDate(FormatDate(d)).None?
  {
    assert Pow10(4) == 10000;
    NatToStringLong(d.year, 4);
    FieldWidths(d);
  }

  /** A year field with a character other than a digit is not read. */
  lemma UnreadableYearField(ys: string, ms: string, ds: string, k: int)
    requires |ms| == 2 && |ds| == 2 && 0 <= k < |ys| && !IsDigit(ys[k])
    ensures ParseFullDate(ys + "-" + ms + "-" + ds).None?
  {
    var s := ys + "-" + ms + "-" + ds;
    if |s| == 10 {
      assert s[..4] == ys;
      assert !IsDigit(s[..4][k]);
    }
  }

  /** No two valid dates share their `YYYY-MM-DD` form, whatever the years. */
  lemma FormatDateInjective(a: Date, b: Date)
    requires ValidDate(a) && ValidDate(b)
    ensures FormatDate(a) == FormatDate(b) <==> a == b
  {
    if FormatDate(a) == FormatDate(b) {
      FormatDateOneToOne(a, b);
    }
  }

  lemma FormatDateOneToOne(a: Date, b: Date)
    requires ValidDate(a) && ValidDate(b) && FormatDate(a) == FormatDate(b)
    ensures a == b
  {
    FormatFields(a);
    FormatFields(b);
    FieldWidths(a);
    FieldWidths(b);
    FormatSplit(PadStart(IntToString(a.year), 4), PadStart(IntToString(a.month), 2), PadStart(IntToString(a.day), 2),
                PadStart(IntToString(b.year), 4), PadStart(IntToString(b.month), 2), PadStart(IntToString(b.day), 2));
    YearTextInjective(a.year, b.year);
    PaddedNat(a.month, 2);
    PaddedNat(b.month, 2);
    PaddedNat(a.day, 2);
    PaddedNat(b.day, 2);
  }

  /** With two-character month and day fields, the year field is everything
      before the last six characters, so equal texts have equal fields. */
  lemma FormatSplit(ya: string, ma: string, da: string, yb: string, mb: string, db: string)
    requires |ma| == 2 && |da| == 2 && |mb| == 2 && |db| == 2
    requires ya + "-" + ma + "-" + da == yb + "-" + mb + "-" + db
    ensures ya == yb && ma == mb && da == db
  {
    var s := ya + "-" + ma + "-" + da;
    var n := |ya|;
    assert |yb| == n;
    assert ya == s[..n] && ma == s[n + 1..n + 3] && da == s[n + 4..];
    assert yb == s[..n] && mb == s[n + 1..n + 3] && db == s[n + 4..];
  }

  /** The padded year text determines the year: a year from 0 up is all
      digits, and a negative year keeps its '-' after the padding zeros. */
  lemma YearTextInjective(y: int, z: int)
    requires PadStart(IntToString(y), 4) == PadStart(IntToString(z), 4)
    ensures y == z
  {
    if y < 0 && z < 0 {
      NegativeYearText(y, z);
    } else if y < 0 {
      NegativeNotDigits(y);
      PaddedNat(z, 4);
    } else if z < 0 {
      NegativeNotDigits(z);
      PaddedNat(y, 4);
    } else {
      PaddedNat(y, 4);
      PaddedNat(z, 4);
    }
  }

  lemma NegativeYearText(y: int, z: int)
    requires y < 0 && z < 0
    requires PadStart(IntToString(y), 4) == PadStart(IntToString(z), 4)
    ensures y == z
  {
    var m, n := NatToString(-y), NatToString(-z);
    assert PadStart("-" + m, 4) == PadStart("-" + n, 4) by {
      assert IntToString(y) == "-" + m && IntToString(z) == "-" + n;
    }
    SignedTextInjective(m, n);
    NatToStringInjective(-y, -z);
  }

  lemma NatToStringInjective(a: nat, b: nat)
    requires NatToString(a) == NatToString(b)
    ensures a == b
  {
    DigitsOfNat(a);
    DigitsOfNat(b);
  }

  lemma SignedTextInjective(m: string, n: string)
    requires AllDigits(m) && AllDigits(n)
    requires PadStart("-" + m, 4) == PadStart("-" + n, 4)
    ensures m == n
  {
    SignedPad(m, 4);
    SignedPad(n, 4);
    SignPosition(PadWidth("-" + m, 4), m, PadWidth("-" + n, 4), n);
  }

  /** A negative number's padded text is zeros, the sign, then the digits of
      its magnitude. */
  lemma SignedPad(m: string, w: nat)
    ensures PadStart("-" + m, w) == Zeros(PadWidth("-" + m, w)) + "-" + m
  {
    var t := "-" + m;
    if |t| >= w {
      assert Zeros(0) + t == t;
    } else {
      assert Zeros(w - |t|) + t == Zeros(w - |t|) + "-" + m;
    }
  }

  /** How many zeros `PadStart(s, width)` puts in front. */
  function PadWidth(s: string, width: nat): (k: nat)
    ensures |s| >= width ==> k == 0
    ensures |s| < width ==> k + |s| == width
  {
    if |s| >= width then 0 else width - |s|
  }

  /** A non-negative number's text, padded with zeros to any width, is all
      digits and reads back as the number. */
  lemma PaddedNat(n: nat, w: nat)
    ensures AllDigits(PadStart(IntToString(n), w))
    ensures DigitsValue(PadStart(IntToString(n), w)) == n
  {
    var s := NatToString(n);
    assert IntToString(n) == s;
    DigitsOfNat(n);
    if |s| < w {
      assert PadStart(s, w) == Zeros(w - |s|) + s;
      LeadingZeros(w - |s|, s);
    } else {
      assert PadStart(s, w) == s;
    }
  }

  lemma NegativeNotDigits(y: int)
    requires y < 0
    ensures !AllDigits(PadStart(IntToString(y), 4))
  {
    var t := "-" + NatToString(-y);
    assert IntToString(y) == t;
    SignedPad(NatToString(-y), 4);
    assert PadStart(t, 4)[PadWidth(t, 4)] == '-';
  }

  /** In zeros, a '-', then digits, the '-' is the first character that is
      not a '0', so equal texts of that shape have equal digits. */
  lemma SignPosition(k1: nat, n1: string, k2: nat, n2: string)
    requires AllDigits(n1) && AllDigits(n2)
    requires Zeros(k1) + "-" + n1 == Zeros(k2) + "-" + n2
    ensures n1 == n2
  {
    var s := Zeros(k1) + "-" + n1;
    assert s[k1] == '-' && s[k2] == '-';
    assert forall i :: 0 <= i < k1 ==> s[i] == '0';
    assert forall i :: 0 <= i < k2 ==> s[i] == '0';
    assert k1 == k2;
    assert n1 == s[k1 + 1..] && n2 == s[k2 + 1..];
  }
}

=== FILE: gregorian.dfy ===
/** Proleptic Gregorian calendar arithmetic on plain calendar days.

    A date is a (year, month, day) triple with a 1-based month, as in the
    `full-date` production of RFC 3339, section 5.6. The leap-year rule and
    month lengths are those of RFC 3339, Appendix C; the weekday numbering
    (0 = Sunday .. 6 = Saturday) is that of RFC 3339, Appendix B, and of
    dayjs's `day()`.
 */
module Gregorian {

  datatype Date = Date(year: int, month: int, day: int)

  /** Leap years: divisible by 4, except centuries not divisible by 400. */
  predicate IsLeapYear(y: int) {
    y % 4 == 0 && (y % 100 != 0 || y % 400 == 0)
  }

  function DaysInMonth(y: int, m: int): (n: int)
    requires 1 <= m <= 12
    ensures 28 <= n <= 31
    ensures n == 28 <==> m == 2 && !IsLeapYear(y)
    ensures n == 29 <==> m == 2 && IsLeapYear(y)
    ensures n == 30 <==> m == 4 || m == 6 || m == 9 || m == 11
  {
    if m == 2 then (if IsLeapYear(y) then 29 else 28)
    else if m == 4 || m == 6 || m == 9 || m == 11 then 30
    else 31
  }

  predicate ValidDate(d: Date) {
    1 <= d.month <= 12 && 1 <= d.day <= DaysInMonth(d.year, d.month)
  }

  /** Same calendar day: dayjs's `isSame(other, 'day')` on two valid dates. */
  predicate SameDay(a: Date, b: Date) {
    a.year == b.year && a.month == b.month && a.day == b.day
  }

  // ---------------------------------------------------------------------
  // Months

  /** The month a zero-based JavaScript month index denotes in year `year`:
      like `Date.prototype.setMonth`, an index outside 0..11 rolls over into
      the neighbouring years (floor division by 12). */
  function NormalizeMonth(year: int, monthIndex: int): (r: (int, int))
    ensures 1 <= r.1 <= 12
    ensures 12 * r.0 + (r.1 - 1) == 12 * year + monthIndex
    ensures 0 <= monthIndex < 12 ==> r == (year, monthIndex + 1)
  {
    (year + monthIndex / 12, monthIndex % 12 + 1)
  }

  function FirstOfMonth(y: int, m: int): (d: Date)
    requires 1 <= m <= 12
    ensures ValidDate(d) && d.year == y && d.month == m && d.day == 1
  {
    Date(y, m, 1)
  }

  function LastOfMonth(y: int, m: int): (d: Date)
    requires 1 <= m <= 12
    ensures ValidDate(d) && d.year == y && d.month == m
    ensures d.day == DaysInMonth(y, m)
  {
    Date(y, m, DaysInMonth(y, m))
  }

  /** The (year, month) before and after a given month. */
  function PrevMonth(y: int, m: int): (r: (int, int))
    requires 1 <= m <= 12
    ensures 1 <= r.1 <= 12
    ensures 12 * r.0 + r.1 == 12 * y + m - 1
  {
    if m == 1 then (y - 1, 12) else (y, m - 1)
  }

  function NextMonth(y: int, m: int): (r: (int, int))
    requires 1 <= m <= 12
    ensures 1 <= r.1 <= 12
    ensures 12 * r.0 + r.1 == 12 * y + m + 1
  {
    if m == 12 then (y + 1, 1) else (y, m + 1)
  }

  // ---------------------------------------------------------------------
  // Stepping by days

  function NextDay(d: Date): Date
    requires ValidDate(d)
  {
    if d.day < DaysInMonth(d.year, d.month) then Date(d.year, d.month, d.day + 1)
    else if d.month < 12 then Date(d.year, d.month + 1, 1)
    else Date(d.year + 1, 1, 1)
  }

  function PrevDay(d: Date): Date
    requires ValidDate(d)
  {
    if d.day > 1 then Date(d.year, d.month, d.day - 1)
    else if d.month > 1 then Date(d.year, d.month - 1, DaysInMonth(d.year, d.month - 1))
    else Date(d.year - 1, 12, 31)
  }

  lemma NextPrevInverse(d: Date)
    requires ValidDate(d)
    ensures ValidDate(NextDay(d)) && ValidDate(PrevDay(d))
    ensures PrevDay(NextDay(d)) == d
    ensures NextDay(PrevDay(d)) == d
  {
  }

  // ---------------------------------------------------------------------
  // Day numbers

  /** Days since 0000-03-01. Counting years from March puts the leap day at
      the end of the counted year, so the month offsets are one fixed table
      ((153 * m + 2) / 5 for March = 0 .. February = 11). */
  function DayNumber(d: Date): int {
    var y := if d.month <= 2 then d.year - 1 else d.year;
    var mp := if d.month <= 2 then d.month + 9 else d.month - 3;
    365 * y + y / 4 - y / 100 + y / 400 + (153 * mp + 2) / 5 + d.day - 1
  }

  /** The step in `y / k` from one year to the next is 1 exactly on multiples
      of k, for the three divisors of the leap-year rule. */
  lemma DivStep(y: int, k: int)
    requires k == 4 || k == 100 || k == 400
    ensures y / k - (y - 1) / k == if y % k == 0 then 1 else 0
  {
    if k == 4 {
      var q, r := y / 4, y % 4;
      assert y == 4 * q + r;
    } else if k == 100 {
      var q, r := y / 100, y % 100;
      assert y == 100 * q + r;
    } else {
      var q, r := y / 400, y % 400;
      assert y == 400 * q + r;
    }
  }

  lemma LeapDaySteps(y: int)
    ensures (y / 4 - (y - 1) / 4) - (y / 100 - (y - 1) / 100) + (y / 400 - (y - 1) / 400)
            == if IsLeapYear(y) then 1 else 0
  {
    DivStep(y, 4);
    DivStep(y, 100);
    DivStep(y, 400);
    if y % 400 == 0 {
      var q := y / 400;
      assert y == 100 * (4 * q);
    }
    if y % 100 == 0 {
      var q := y / 100;
      assert y == 4 * (25 * q);
    }
  }

  /** Consecutive entries of the month-offset table differ by the length of
      the earlier month (March = 0 .. January = 10). */
  lemma MonthOffsetStep(mp: int)
    requires 0 <= mp <= 10
    ensures (153 * (mp + 1) + 2) / 5 - (153 * mp + 2) / 5
            == if mp == 1 || mp == 3 || mp == 6 || mp == 8 then 30 else 31
  {
    if mp == 0 {} else if mp == 1 {} else if mp == 2 {} else if mp == 3 {}
    else if mp == 4 {} else if mp == 5 {} else if mp == 6 {} else if mp == 7 {}
    else if mp == 8 {} else if mp == 9 {} else {}
  }

  /** The 1st of the next month follows the last day of a month that is not
      December; after February the step uses the leap-year rule. */
  lemma MonthEndStep(y: int, m: int)
    requires 1 <= m < 12
    ensures DayNumber(Date(y, m + 1, 1)) == DayNumber(Date(y, m, DaysInMonth(y, m))) + 1
  {
    if m == 2 {
      LeapDaySteps(y);
    } else {
      MonthOffsetStep(if m <= 2 then m + 9 else m - 3);
    }
  }

  lemma NextDayNumber(d: Date)
    requires ValidDate(d)
    ensures ValidDate(NextDay(d))
    ensures DayNumber(NextDay(d)) == DayNumber(d) + 1
  {
    if d.day < DaysInMonth(d.year, d.month) {
      assert NextDay(d) == Date(d.year, d.month, d.day + 1);
    } else if d.month < 12 {
      assert NextDay(d) == Date(d.year, d.month + 1, 1);
      MonthEndStep(d.year, d.month);
    } else {
      assert NextDay(d) == Date(d.year + 1, 1, 1);
    }
  }

  lemma PrevDayNumber(d: Date)
    requires ValidDate(d)
    ensures ValidDate(PrevDay(d))
    ensures DayNumber(PrevDay(d)) == DayNumber(d) - 1
  {
    NextPrevInverse(d);
    NextDayNumber(PrevDay(d));
  }

  /** `d.add(n, 'day')`, and `d.subtract(-n, 'day')`, one day at a time. */
  function AddDays(d: Date, n: int): (r: Date)
    requires ValidDate(d)
    ensures ValidDate(r)
    decreases if n < 0 then -n else n
  {
    if n == 0 then d
    else if n > 0 then (NextPrevInverse(d); AddDays(NextDay(d), n - 1))
    else (NextPrevInverse(d); AddDays(PrevDay(d), n + 1))
  }

  /** Adding n days adds n to the day number. */
  lemma {:induction false} AddDaysNumber(d: Date, n: int)
    requires ValidDate(d)
    ensures DayNumber(AddDays(d, n)) == DayNumber(d) + n
    decreases if n < 0 then -n else n
  {
    if n > 0 {
      NextDayNumber(d);
      AddDaysNumber(NextDay(d), n - 1);
    } else if n < 0 {
      PrevDayNumber(d);
      AddDaysNumber(PrevDay(d), n + 1);
    }
  }

  lemma AddDaysNext(d: Date, n: int)
    requires ValidDate(d)
    ensures ValidDate(NextDay(d))
    ensures AddDays(NextDay(d), n) == AddDays(d, n + 1)
  {
    NextPrevInverse(d);
  }

  lemma AddDaysPrev(d: Date, n: int)
    requires ValidDate(d)
    ensures ValidDate(PrevDay(d))
    ensures AddDays(PrevDay(d), n) == AddDays(d, n - 1)
  {
    NextPrevInverse(d);
  }

  /** Adding a days and then b days is adding a + b days. */
  lemma {:induction false} AddDaysAdd(d: Date, a: int, b: int)
    requires ValidDate(d)
    ensures AddDays(AddDays(d, a), b) == AddDays(d, a + b)
    decreases if a < 0 then -a else a
  {
    if a > 0 {
      assert AddDays(d, a) == AddDays(NextDay(d), a - 1);
      AddDaysAdd(NextDay(d), a - 1, b);
      AddDaysNext(d, a - 1 + b);
    } else if a < 0 {
      assert AddDays(d, a) == AddDays(PrevDay(d), a + 1);
      AddDaysAdd(PrevDay(d), a + 1, b);
      AddDaysPrev(d, a + 1 + b);
    } else {
      assert AddDays(d, a) == d;
    }
  }

  /** One more day is the next day. */
  lemma AddDaysStep(d: Date, n: int)
    requires ValidDate(d)
    ensures AddDays(d, n + 1) == NextDay(AddDays(d, n))
  {
    var x := AddDays(d, n);
    AddDaysAdd(d, n, 1);
    assert AddDays(x, 1) == AddDays(NextDay(x), 0);
  }

  // Each fact below about a date r given as `AddDays(d, n)`: stated for a
  // named r, so that a caller holding a long expression for it need not
  // unfold that expression.

  /** A date n days after d has day number n more. */
  lemma ShiftedNumber(d: Date, n: int, r: Date)
    requires ValidDate(d) && r == AddDays(d, n)
    ensures DayNumber(r) == DayNumber(d) + n
  {
    AddDaysNumber(d, n);
  }

  /** Dates n and n + 1 days after d are consecutive days. */
  lemma ShiftedNext(d: Date, n: int, a: Date, b: Date)
    requires ValidDate(d) && a == AddDays(d, n) && b == AddDays(d, n + 1)
    ensures b == NextDay(a)
  {
    AddDaysStep(d, n);
  }

  /** A date n days after d is n weekdays further round the week. */
  lemma ShiftedWeekday(d: Date, n: int, r: Date)
    requires ValidDate(d) && r == AddDays(d, n)
    ensures Weekday(r) == (Weekday(d) + n) % 7
  {
    WeekdayAddDays(d, n);
  }

  /** The days after a month's last day begin the next month. */
  lemma ShiftedIntoNextMonth(first: Date, n: int, r: Date)
    requires ValidDate(first) && first.day == 1 && r == AddDays(first, n)
    requires DaysInMonth(first.year, first.month) <= n < DaysInMonth(first.year, first.month) + 28
    ensures var (ny, nm) := NextMonth(first.year, first.month);
            r == Date(ny, nm, n - DaysInMonth(first.year, first.month) + 1)
  {
    var dim := DaysInMonth(first.year, first.month);
    var last := Date(first.year, first.month, dim);
    AddDaysWithinMonth(first, dim - 1);
    AddDaysAdd(first, dim - 1, n - dim + 1);
    AddDaysNext(last, n - dim);
    AddDaysWithinMonth(NextDay(last), n - dim);
  }

  /** The days before a month's 1st end the previous month. */
  lemma ShiftedIntoPrevMonth(first: Date, n: int, r: Date)
    requires ValidDate(first) && first.day == 1 && r == AddDays(first, n)
    requires -28 <= n < 0
    ensures var (py, pm) := PrevMonth(first.year, first.month);
            r == Date(py, pm, DaysInMonth(py, pm) + n + 1)
  {
    AddDaysPrev(first, n + 1);
    AddDaysWithinMonth(PrevDay(first), n + 1);
  }

  /** Inside one month, adding days only moves the day of the month. */
  lemma {:induction false} AddDaysWithinMonth(d: Date, n: int)
    requires ValidDate(d)
    requires 1 <= d.day + n <= DaysInMonth(d.year, d.month)
    ensures AddDays(d, n) == Date(d.year, d.month, d.day + n)
    decreases if n < 0 then -n else n
  {
    if n > 0 {
      AddDaysWithinMonth(NextDay(d), n - 1);
    } else if n < 0 {
      AddDaysWithinMonth(PrevDay(d), n + 1);
    }
  }

  // ---------------------------------------------------------------------
  // Calendar order

  /** Calendar order read off the fields: an earlier year, or the same year
      and an earlier month, or the same month and an earlier day. */
  predicate Earlier(a: Date, b: Date) {
    a.year < b.year
    || (a.year == b.year && (a.month < b.month || (a.month == b.month && a.day < b.day)))
  }

  /** Within a month the day number counts the days from the 1st. */
  lemma DayNumberInMonth(d: Date)
    ensures DayNumber(d) == DayNumber(Date(d.year, d.month, 1)) + d.day - 1
  {
  }

  /** The 1st of the next month comes a month's length after the 1st. */
  lemma MonthStartStep(y: int, m: int)
    requires 1 <= m <= 12
    ensures var (ny, nm) := NextMonth(y, m);
            DayNumber(Date(ny, nm, 1)) == DayNumber(Date(y, m, 1)) + DaysInMonth(y, m)
  {
    if m < 12 {
      assert NextMonth(y, m) == (y, m + 1);
      MidYearMonthStep(y, m);
    } else {
      assert NextMonth(y, m) == (y + 1, 1);
      YearStartStep(y);
    }
  }

  lemma MidYearMonthStep(y: int, m: int)
    requires 1 <= m < 12
    ensures DayNumber(Date(y, m + 1, 1)) == DayNumber(Date(y, m, 1)) + DaysInMonth(y, m)
  {
    DayNumberInMonth(Date(y, m, DaysInMonth(y, m)));
    MonthEndStep(y, m);
  }

  lemma YearStartStep(y: int)
    ensures DayNumber(Date(y + 1, 1, 1)) == DayNumber(Date(y, 12, 1)) + 31
  {
    var last := Date(y, 12, 31);
    NextDayNumber(last);
    assert NextDay(last) == Date(y + 1, 1, 1);
  }

  /** A later month starts after every day of an earlier month. */
  lemma {:induction false} MonthStartsIncrease(y: int, m: int, y2: int, m2: int)
    requires 1 <= m <= 12 && 1 <= m2 <= 12
    requires 12 * y + m < 12 * y2 + m2
    ensures DayNumber(Date(y, m, 1)) + DaysInMonth(y, m) <= DayNumber(Date(y2, m2, 1))
    decreases 12 * y2 + m2 - (12 * y + m)
  {
    var (ny, nm) := NextMonth(y, m);
    MonthStartStep(y, m);
    if 12 * ny + nm < 12 * y2 + m2 {
      MonthStartsIncrease(ny, nm, y2, m2);
    } else {
      assert ny == y2 && nm == m2;
    }
  }

  /** Day numbers follow calendar order. */
  lemma DayNumberOrder(a: Date, b: Date)
    requires ValidDate(a) && ValidDate(b)
    ensures DayNumber(a) < DayNumber(b) <==> Earlier(a, b)
  {
    DayNumberInMonth(a);
    DayNumberInMonth(b);
    if 12 * a.year + a.month < 12 * b.year + b.month {
      MonthStartsIncrease(a.year, a.month, b.year, b.month);
    } else if 12 * b.year + b.month < 12 * a.year + a.month {
      MonthStartsIncrease(b.year, b.month, a.year, a.month);
    } else {
      assert a.year == b.year && a.month == b.month;
    }
  }

  /** Two valid dates are the same calendar day exactly when their day
      numbers agree. */
  lemma SameDayIsSameDayNumber(a: Date, b: Date)
    requires ValidDate(a) && ValidDate(b)
    ensures SameDay(a, b) <==> DayNumber(a) == DayNumber(b)
  {
    DayNumberOrder(a, b);
    DayNumberOrder(b, a);
  }

  // ---------------------------------------------------------------------
  // Weekdays

  /** 0 = Sunday .. 6 = Saturday; 0000-03-01 was a Wednesday. */
  function Weekday(d: Date): (w: int)
    ensures 0 <= w < 7
  {
    (DayNumber(d) + 3) % 7
  }

  /** The English day names in the order of RFC 3339, Appendix B. */
  const DayNames: seq<string> :=
    ["Sunday", "Monday", "Tuesday", "Wednesday", "Thursday", "Friday", "Saturday"]

  /** The day-of-week function of RFC 3339, Appendix B, written with the
      floor division and modulo of this language; for years from 1 on all its
      operands are non-negative and it agrees with the C original. */
  function DayOfWeekRfc3339(year: int, month: int, day: int): int {
    var month' := month - 2;
    var year' := if month' < 1 then year - 1 else year;
    var month'' := if month' < 1 then month' + 12 else month';
    var cent := year' / 100;
    var yy := year' % 100;
    ((26 * month'' - 2) / 10 + day + yy + yy / 4 + cent / 4 + 5 * cent) % 7
  }

  lemma ModShift(x: int, k: int)
    ensures (x + 7 * k) % 7 == x % 7
  {
    var q, r := x / 7, x % 7;
    assert x + 7 * k == 7 * (q + k) + r;
  }

  /** The leap-day counts of year y, split by century as Appendix B does. */
  lemma CenturySplit(y: int)
    ensures y / 4 == 25 * (y / 100) + (y % 100) / 4
    ensures y / 400 == (y / 100) / 4
  {
    var c, yy := y / 100, y % 100;
    assert y == 4 * (25 * c + yy / 4) + yy % 4;
    assert y == 400 * (c / 4) + (100 * (c % 4) + yy);
  }

  /** The two month tables differ by a whole number of weeks, less 2 days. */
  lemma MonthTermsAgree(mp: int)
    requires 0 <= mp < 12
    ensures ((153 * mp + 2) / 5 + 2 - (26 * (mp + 1) - 2) / 10) % 7 == 0
  {
    var a, b := (153 * mp + 2) / 5, (26 * (mp + 1) - 2) / 10;
    if mp == 0 {
      assert a == 0 && b == 2;
    } else if mp == 1 {
      assert a == 31 && b == 5;
    } else if mp == 2 {
      assert a == 61 && b == 7;
    } else if mp == 3 {
      assert a == 92 && b == 10;
    } else if mp == 4 {
      assert a == 122 && b == 12;
    } else if mp == 5 {
      assert a == 153 && b == 15;
    } else if mp == 6 {
      assert a == 184 && b == 18;
    } else if mp == 7 {
      assert a == 214 && b == 20;
    } else if mp == 8 {
      assert a == 245 && b == 23;
    } else if mp == 9 {
      assert a == 275 && b == 25;
    } else if mp == 10 {
      assert a == 306 && b == 28;
    } else {
      assert a == 337 && b == 31;
    }
  }

  /** The day-number weekday agrees with the Appendix B formula on every valid date. */
  lemma WeekdayMatchesRfc3339(d: Date)
    requires ValidDate(d)
    ensures Weekday(d) == DayOfWeekRfc3339(d.year, d.month, d.day)
  {
    var y := if d.month <= 2 then d.year - 1 else d.year;
    var mp := if d.month <= 2 then d.month + 9 else d.month - 3;
    var c, yy := y / 100, y % 100;
    CenturySplit(y);
    MonthTermsAgree(mp);
    var monthTerm := (153 * mp + 2) / 5;
    var rfcMonth := (26 * (mp + 1) - 2) / 10;
    var t := (monthTerm + 2 - rfcMonth) / 7;
    assert monthTerm + 2 - rfcMonth == 7 * t;
    var rfcSum := rfcMonth + d.day + yy + yy / 4 + c / 4 + 5 * c;
    assert DayNumber(d) + 3 == rfcSum + 7 * (5217 * c + 52 * yy + t);
    ModShift(rfcSum, 5217 * c + 52 * yy + t);
  }

  /** Adding n days moves the weekday n steps round the week. */
  lemma WeekdayAddDays(d: Date, n: int)
    requires ValidDate(d)
    ensures Weekday(AddDays(d, n)) == (Weekday(d) + n) % 7
  {
    AddDaysNumber(d, n);
    var x := DayNumber(d) + 3;
    assert x + n == (Weekday(d) + n) + 7 * (x / 7);
    ModShift(Weekday(d) + n, x / 7);
  }

  // ---------------------------------------------------------------------
  // ISO weeks (Monday .. Sunday)

  /** `startOf('isoWeek')`: the Monday on or before d. */
  function StartOfIsoWeek(d: Date): Date
    requires ValidDate(d)
  {
    AddDays(d, -((Weekday(d) + 6) % 7))
  }

  /** `endOf('isoWeek')`: the Sunday on or after d. */
  function EndOfIsoWeek(d: Date): Date
    requires ValidDate(d)
  {
    AddDays(d, (7 - Weekday(d)) % 7)
  }

  /** Going back (w + 6) % 7 days from weekday w always lands on a Monday. */
  lemma MondayOffset(w: int)
    requires 0 <= w < 7
    ensures (w - (w + 6) % 7) % 7 == 1
  {
    if w == 0 { assert (w + 6) % 7 == 6; } else { assert (w + 6) % 7 == w - 1; }
  }

  lemma WeekdayAfter(d: Date, n: int, w: int)
    requires ValidDate(d)
    requires (Weekday(d) + n) % 7 == w
    ensures Weekday(AddDays(d, n)) == w
  {
    WeekdayAddDays(d, n);
  }

  lemma StartOfIsoWeekIsMonday(d: Date)
    requires ValidDate(d)
    ensures Weekday(StartOfIsoWeek(d)) == 1
    ensures DayNumber(d) - 6 <= DayNumber(StartOfIsoWeek(d)) <= DayNumber(d)
  {
    var back := (Weekday(d) + 6) % 7;
    MondayOffset(Weekday(d));
    WeekdayAfter(d, -back, 1);
    AddDaysNumber(d, -back);
  }

  lemma EndOfIsoWeekIsSunday(d: Date)
    requires ValidDate(d)
    ensures Weekday(EndOfIsoWeek(d)) == 0
    ensures DayNumber(d) <= DayNumber(EndOfIsoWeek(d)) <= DayNumber(d) + 6
  {
    var ahead := (7 - Weekday(d)) % 7;
    WeekdayAfter(d, ahead, 0);
    AddDaysNumber(d, ahead);
  }
}

=== FILE: subsequences.dfy ===
/** `Array.prototype.filter` on sequences, and the subsequence relation that
    says what it keeps: the elements that pass, each as often as in the
    input, in their input order. */
module Subsequences {

  /** a can be obtained from b by deleting elements. */
  predicate IsSubsequence<T(==,!new)>(a: seq<T>, b: seq<T>)
    decreases |b|
  {
    if |a| == 0 then true
    else if |b| == 0 then false
    else (a[0] == b[0] && IsSubsequence(a[1..], b[1..])) || IsSubsequence(a, b[1..])
  }

  function Filter<T(==,!new)>(s: seq<T>, p: T -> bool): (r: seq<T>)
    ensures |r| <= |s|
    ensures forall x :: x in r <==> x in s && p(x)
    ensures forall x :: multiset(r)[x] == if p(x) then multiset(s)[x] else 0
    ensures IsSubsequence(r, s)
  {
    if |s| == 0 then []
    else
      var rest := Filter(s[1..], p);
      assert s == [s[0]] + s[1..];
      assert multiset(s) == multiset{s[0]} + multiset(s[1..]);
      if p(s[0]) then [s[0]] + rest else rest
  }

  /** Filters whose tests agree on every element keep the same elements. */
  lemma {:induction false} FilterAgree<T(!new)>(s: seq<T>, p: T -> bool, q: T -> bool)
    requires forall x :: x in s ==> p(x) == q(x)
    ensures Filter(s, p) == Filter(s, q)
  {
    if |s| > 0 {
      FilterAgree(s[1..], p, q);
    }
  }

  lemma {:induction false} FilterAppend<T(!new)>(s: seq<T>, t: seq<T>, p: T -> bool)
    ensures Filter(s + t, p) == Filter(s, p) + Filter(t, p)
  {
    if |s| > 0 {
      assert (s + t)[1..] == s[1..] + t;
      FilterAppend(s[1..], t, p);
    } else {
      assert s + t == t;
    }
  }

  /** When every element passes, filtering keeps the whole input. */
  lemma {:induction false} FilterKeepsAll<T(!new)>(s: seq<T>, p: T -> bool)
    requires forall x :: x in s ==> p(x)
    ensures Filter(s, p) == s
  {
    if |s| > 0 {
      FilterKeepsAll(s[1..], p);
      assert s == [s[0]] + s[1..];
    }
  }

  lemma FilterIdempotent<T(!new)>(s: seq<T>, p: T -> bool)
    ensures Filter(Filter(s, p), p) == Filter(s, p)
  {
    FilterKeepsAll(Filter(s, p), p);
  }
}

=== FILE: wrappers.dfy ===
/** The optional value used for "no selected day" and for a failed parse. */
module Wrappers {

  datatype Option<+T> = None | Some(value: T)
}
